=== FILE: README.md ===
# AI Planet workflow builder and RAG chat, modelled in Dafny

This project models the stateful logic of the AI Planet application. The
application has two halves:

- A React front end. It has a mode-gated workflow-diagram editor on a
  ReactFlow canvas, a chat panel and a small form for custom components.
- A FastAPI back end. Its `/chat` endpoint ingests a PDF into a vector
  namespace or answers a query. The answer comes either from a remembered
  user profile or from a tool-using agent. Conversation turns are kept in a
  SQLite table.

Each handler is a pure function over immutable datatypes. Its `ensures`
clauses state what the handler promises. Lemmas state what the handlers
guarantee together.

Modules, one per file:

- `Wrappers`: `Option`.
- `Text`: JavaScript `trim` and Python `strip` over their whitespace sets,
  `split`/`join` on a separator, and decimal rendering and parsing of
  naturals.
- `Patterns`: the pieces of Python's `re` the back end uses. These are
  case-insensitive literal matching, `\w`, and leftmost search.
- `Seqs`: subsequences and an order-preserving filter.
- `Diagram`: nodes, edges, the pre-authored agent diagram, and removal by
  id.
- `Editor`: the editor state `(mode, nodes, edges, selection, flowReady)`,
  where `flowReady` records whether the ReactFlow instance is set; one
  transition per handler of `WorkflowCanvas.js` and `App.js`, and event
  replay.
- `EditorProperties`: the editor's cross-handler properties and worked
  scenarios.
- `ConversationStore`: the `conversations` table of `db/local_db.py`,
  modelled as an append-ordered sequence of rows.
- `UserMemory`: `extract_user_info`, the personal-information trigger and
  the reply built from the profile.
- `ChatBackend`: PDF-text chunking, vector ids, the namespace upsert, the
  `/chat` dispatch and the agent graph's `should_continue` router. The PDF
  reader, the embeddings and upsert calls and the agent can each fail. A
  failed request keeps the changes made before the failing call.
- `ChatClient`: the chat panel's transcript state machine (`sendData`). Sends are modelled twice: once as atomic, and once with requests in flight that overlap.
- `ComponentForm`: the custom-component name field.

Three behaviours of the program are easy to miss, and the model states
them as lemmas:

- Toggling the mode throws away Custom Mode work.
  `EditorProperties.CustomWorkLostOnRoundTrip` shows this.
- Delete does not cascade to edges that touch removed nodes.
  `EditorProperties.DeleteLeavesDanglingEdge` shows this.
- Two drops in the same millisecond get the same node id.
  `EditorProperties.SameTickDropsCollide` shows this.

Things outside the program are parameters:

- ReactFlow's `project`, `applyNodeChanges`, `applyEdgeChanges` and
  `addEdge`.
- The clock reading `+new Date()`.
- The outcome of the browser's `fetch`.
- The LangGraph agent. It is a function from the profile, the document
  namespace and the message history to the answer text.

## Model

| member | source | states |
|---|---|---|
| Diagram.InitialDiagramWellFormed | frontend/src/App.js:7-19 | the pre-authored diagram has four nodes with ids 1-4, four edges with distinct ids, and every edge's source and target is one of the nodes |
| Diagram.RemoveNodes | frontend/src/components/WorkflowCanvas.js:72 | filtering by selected id keeps survivors in order, drops every node whose id is selected with all its copies, keeps every other node with its multiplicity, and leaves exactly the unselected ids |
| Diagram.RemoveEdges | frontend/src/components/WorkflowCanvas.js:75 | the same for edges: an order-preserving removal of exactly the edges whose ids are selected |
| Diagram.SubsequenceKeepsDistinctNodes | frontend/src/components/WorkflowCanvas.js:72 | removing nodes never creates duplicate node ids |
| Diagram.SubsequenceKeepsDistinctEdges | frontend/src/components/WorkflowCanvas.js:75 | removing edges never creates duplicate edge ids |
| Editor.NodeIdAtInjective | frontend/src/components/WorkflowCanvas.js:29 | `node_<timestamp>` ids are equal exactly when the timestamps are equal |
| Editor.Toggle | frontend/src/App.js:27-37 | the mode flips; entering Custom Mode empties the canvas; leaving it restores exactly the pre-authored nodes and edges; the result is well formed |
| Editor.FlowInit | frontend/src/components/WorkflowCanvas.js:108-111 | ReactFlow's `onInit` makes the instance available and changes nothing else |
| Editor.AddComponent | frontend/src/App.js:47-55 | in either mode, exactly one 'custom' node is appended at (250, 250) with the given label; earlier nodes and all edges are unchanged |
| Editor.Drop | frontend/src/components/WorkflowCanvas.js:14-36 | nothing changes in the fixed mode, before ReactFlow is initialised, or with an empty payload; otherwise exactly one 'default' node is appended with the payload as label, the projected drop point as position and the timestamp id, and earlier nodes and all edges are unchanged |
| Editor.NodesChange | frontend/src/components/WorkflowCanvas.js:38-41 | a no-op in the fixed mode; in Custom Mode the nodes become the library's result and nothing else changes |
| Editor.EdgesChange | frontend/src/components/WorkflowCanvas.js:43-46 | a no-op in the fixed mode; in Custom Mode the edges become the library's result |
| Editor.Connect | frontend/src/components/WorkflowCanvas.js:48-51 | a no-op in the fixed mode; in Custom Mode the edges become `addEdge`'s result |
| Editor.DoubleClick | frontend/src/components/WorkflowCanvas.js:53-59 | in Custom Mode every node with the clicked id moves to the clicked position plus (50, 50) and keeps its id, type and label; all other nodes and all edges are unchanged; the set of node ids is unchanged |
| Editor.SelectionChange | frontend/src/components/WorkflowCanvas.js:62-64 | the reported selection replaces the tracked one in either mode, and the graph is untouched |
| Editor.KeyDown | frontend/src/components/WorkflowCanvas.js:66-81 | only Delete in Custom Mode changes anything; it removes, in order, exactly the nodes and edges whose ids are selected; an empty selection list leaves its list unchanged |
| Editor.Step | frontend/src/components/WorkflowCanvas.js:14-81 | dispatching one event changes the mode exactly when the event is the toggle; in the fixed mode, the only event that changes the nodes or edges is App's `addComponent` callback, because every canvas handler first checks `customMode` and that callback does not |
| Editor.Run | frontend/src/App.js:27-37 | replaying events ends in the starting mode exactly when the events hold an even number of toggles |
| EditorProperties.RunConcat | frontend/src/components/WorkflowCanvas.js:14-81 | handling two batches of events one after the other gives the same state as handling them as one batch, because the editor's whole state is `(mode, nodes, edges, selection, instance)` |
| EditorProperties.FixedModeIsReadOnly | frontend/src/components/WorkflowCanvas.js:15-81 | in the fixed mode, no sequence of canvas events changes the nodes, the edges or the mode |
| EditorProperties.ToggleTwiceFromInitial | frontend/src/App.js:22-37 | two toggles from page load give back the page-load state |
| EditorProperties.ToggleTwiceForgets | frontend/src/App.js:30-36 | two toggles from any state give back the mode but never the canvas: Custom Mode comes back empty and the fixed mode comes back with the pre-authored diagram |
| EditorProperties.CustomWorkLostOnRoundTrip | frontend/src/App.js:30-36 | a node dropped in Custom Mode is gone after a round trip through the fixed mode |
| EditorProperties.DropWellFormedIff | frontend/src/components/WorkflowCanvas.js:28-35 | a successful drop keeps a well-formed diagram well formed if and only if no node already carries the new timestamp id |
| EditorProperties.AddComponentWellFormedIff | frontend/src/App.js:47-55 | adding a palette component keeps a well-formed diagram well formed if and only if no node already carries the id `node_<now>` |
| EditorProperties.AppendNodeWellFormedIff | frontend/src/App.js:54 | appending one node to a well-formed diagram keeps it well formed if and only if the node's id is new |
| EditorProperties.SameTickDropsCollide | frontend/src/components/WorkflowCanvas.js:29 | two drops at the same clock reading create two nodes with one id, so node ids stop being distinct |
| EditorProperties.DistinctTickDropsDiffer | frontend/src/components/WorkflowCanvas.js:29 | drops at different clock readings create nodes with different ids |
| EditorProperties.DoubleClickKeepsWellFormed | frontend/src/components/WorkflowCanvas.js:53-59 | a double-click keeps a well-formed diagram well formed |
| EditorProperties.DeleteKeepsDistinctIds | frontend/src/components/WorkflowCanvas.js:66-81 | any key press keeps node ids and edge ids distinct |
| EditorProperties.DeleteResolvesIff | frontend/src/components/WorkflowCanvas.js:70-76 | after Delete, every edge still resolves if and only if no unselected edge touches a selected node |
| EditorProperties.DeleteLeavesDanglingEdge | frontend/src/components/WorkflowCanvas.js:70-76 | deleting an edge's source node without selecting the edge leaves an edge whose source is gone |
| EditorProperties.DropScenario | frontend/src/components/WorkflowCanvas.js:22-35 | dropping "KnowledgeBase" at (120, 80) with an identity projection creates that node at (120, 80) |
| EditorProperties.DoubleClickScenario | frontend/src/components/WorkflowCanvas.js:14-59 | from page load, after `onInit` and the switch to Custom Mode, a node dropped at (160, 100) with an identity projection is the only node, and double-clicking it moves it to (210, 150) |
| EditorProperties.FixedDiagramInertScenario | frontend/src/components/WorkflowCanvas.js:69 | with the agent diagram shown, selecting a node and pressing Delete leaves all four nodes and edges |
| ConversationStore.InitDb | db/local_db.py:8-32 | whatever existed before, the table afterwards exists and is empty |
| ConversationStore.Store | db/local_db.py:34-41 | exactly one row with the given fields is appended; existing rows are unchanged |
| ConversationStore.ChatRows | db/local_db.py:58 | `WHERE NOT file_uploaded` keeps a row exactly when it is in the table and is a chat row, and never yields more rows than the table holds |
| ConversationStore.UploadRows | db/local_db.py:48 | a row survives `DELETE ... WHERE NOT file_uploaded` exactly when it is in the table and is an upload row |
| ConversationStore.ChatRowsInOrder | db/local_db.py:58 | the chat rows are the order-preserving filter of the table by `NOT file_uploaded`: a subsequence of the table, holding every chat row as often as the table does and no upload row |
| ConversationStore.UploadRowsInOrder | db/local_db.py:48 | the rows left by the delete are the order-preserving filter by `file_uploaded`: a subsequence holding every upload row as often as the table does and no chat row |
| ConversationStore.ChatRowsAppend | db/local_db.py:38 | appending a row adds it to the end of the chat rows if it is a chat row and leaves them unchanged otherwise |
| ConversationStore.UploadRowsAppend | db/local_db.py:38 | appending a row adds it to the end of the upload rows if it is an upload row and leaves them unchanged otherwise |
| ConversationStore.RowsPartition | db/local_db.py:48-58 | every row is either a chat row or an upload row |
| ConversationStore.Clear | db/local_db.py:43-51 | without a database file nothing happens; otherwise exactly the upload rows remain and as many rows are gone as there were chat rows |
| ConversationStore.ClearIdempotent | db/local_db.py:43-51 | clearing twice is clearing once |
| ConversationStore.ReverseReverse | db/local_db.py:59 | reversing the descending fetch undoes the descending order |
| ConversationStore.LimitCount | db/local_db.py:58 | `LIMIT` returns all rows for a negative limit, and at most `limit` rows otherwise |
| ConversationStore.Turns | db/local_db.py:61-64 | each row becomes a user turn with its query followed by an assistant turn with its response |
| ConversationStore.Recent | db/local_db.py:53-65 | without a database file the history is empty; otherwise it has even length, at most twice the limit, and alternates user/assistant starting with user |
| ConversationStore.NewestFirst | db/local_db.py:58 | `ORDER BY ... DESC LIMIT k` over an append-ordered table: k rows, the i-th being the i-th newest |
| ConversationStore.ReverseNewestFirst | db/local_db.py:58-59 | reversing the k newest rows, newest first, gives the last k rows in insertion order |
| ConversationStore.FetchLatest | db/local_db.py:58 | the fetch returns `LIMIT`-many chat rows, the i-th being the i-th newest chat row |
| ConversationStore.RecentIsLatestChats | db/local_db.py:53-65 | the history is the last `limit` chat rows in insertion order, uploads excluded |
| ConversationStore.LatestEndsWith | db/local_db.py:58-64 | when a row is the newest chat row and the limit is not 0, the history ends with that row's user turn and then its assistant turn |
| ConversationStore.StoreChatEndsRecent | db/local_db.py:34-65 | after storing a chat turn, with any limit but 0, the history ends with exactly that query as a user turn followed by that response as an assistant turn |
| ConversationStore.StoreUploadKeepsRecent | db/local_db.py:34-65 | storing an upload row leaves the history unchanged |
| ConversationStore.SameChatsSameRecent | db/local_db.py:53-65 | two tables with the same chat rows give the same history |
| ConversationStore.ClearForgetsHistory | db/local_db.py:43-65 | after a clear the recent history is empty, whatever the limit |
| ConversationStore.ClearUndoesStoreChat | db/local_db.py:34-51 | clearing after storing a chat turn gives the same table as clearing without it |
| UserMemory.NameCapture | backend/app/main.py:38 | `i am (\w+)` matches exactly when a leftmost match exists; the capture is the maximal run of word characters after the case-insensitive "i am " |
| UserMemory.AgeCapture | backend/app/main.py:43-45 | `(\d{1,3}) ?years? old` matches exactly when a leftmost match exists; the age is the decimal value of the one to three digits that start at the leftmost match, so it is below 1000 |
| UserMemory.BirthCapture | backend/app/main.py:48-50 | the "born in"/"from" pattern matches exactly when a leftmost match exists; the result is the strip of the text the group spans at the leftmost match; it holds only word characters and spaces, is its own strip, and starts and ends with a word character when non-empty |
| UserMemory.ExtractUserInfo | backend/app/main.py:36-50 | each profile field is overwritten only when its pattern matches and otherwise keeps its value; a field once set is never reset to `None`, though it can be overwritten with a value the reply treats as unknown; a new age is below 1000 |
| UserMemory.ExtractIdempotent | backend/app/main.py:36-50 | extracting from the same message twice changes nothing more |
| UserMemory.NameExample | backend/app/main.py:38-40 | "I am Bob" records the name "Bob" |
| UserMemory.AgeExample | backend/app/main.py:43-45 | "1234 years old" records age 234, the last three digits before the suffix |
| UserMemory.ZeroAgeOverwrites | backend/app/main.py:43-45 | "0 years old" sets the age to 0 whatever was known, and the reply then treats the age as unknown |
| UserMemory.BlankBirthplaceOverwrites | backend/app/main.py:48-50 | "from  ." sets the birthplace to the empty string whatever was known, and the reply then treats the birthplace as unknown |
| UserMemory.BirthExample | backend/app/main.py:48-50 | "I was born in " followed by any non-empty place of word characters and spaces that starts and ends with a word character records exactly that place, whatever was remembered |
| UserMemory.NewYorkIsPlain | backend/app/main.py:48-50 | "New York" is such a place, so "I was born in New York" records "New York" |
| UserMemory.AsksWithin | backend/app/main.py:180 | the personal-information search is unanchored: text around a triggering query still triggers |
| UserMemory.NoAOrBNeverAsks | backend/app/main.py:180 | every alternative of the trigger contains an 'a' or a 'b', so a query with neither letter in either case never takes the personal-information branch |
| UserMemory.TriggerExamples | backend/app/main.py:180 | "message" (it contains "age") and "What is my name?" both take the personal-information branch |
| UserMemory.ReplyParts | backend/app/main.py:181-187 | one part per truthy field, none exactly when no field is truthy; the name part comes first, the age part right after it, and the birthplace part last, each with its fixed phrase and the field's value; a part begins with 'Y' exactly when it is the first part and the name is known, and with 'a' exactly when it is the last part and the birthplace is known |
| UserMemory.PersonalReply | backend/app/main.py:189 | the reply ends in "."; it is "I don't have that information yet." exactly when no field is truthy |
| UserMemory.JoinedReply | backend/app/main.py:189 | with some field known, the reply is the parts joined by ", " plus "." |
| UserMemory.ReplyWithAllFacts | backend/app/main.py:181-189 | with every field known, the reply lists name, age and birthplace in that order |
| UserMemory.ReplyOpensWithName | backend/app/main.py:181-189 | the reply begins with 'Y' exactly when the name is known, and then begins with "Your name is " and the name |
| UserMemory.ReplyClosesWithBirthplace | backend/app/main.py:186-189 | with the birthplace known, the reply ends with "and you were born in ", the birthplace and "." |
| UserMemory.ZeroAgeIsUnknown | backend/app/main.py:184 | an age of 0 is falsy and counts as not known |
| ChatBackend.StrippedLines | backend/app/main.py:163 | one stripped piece per '\n'-separated line |
| ChatBackend.Chunks | backend/app/main.py:163 | chunks keep line order and are non-empty, stripped and newline-free; they are at most one per line; a string is a chunk exactly when it is some line's non-empty strip; there are none exactly when the text is all whitespace |
| ChatBackend.VectorId | backend/app/main.py:166 | the id is the file name, then '-', then a non-empty run of decimal digits |
| ChatBackend.VectorIdInjective | backend/app/main.py:166 | `filename-i` ids of one file are equal exactly when the indices are |
| ChatBackend.Vectors | backend/app/main.py:166 | one vector per chunk, with pairwise distinct ids `filename-i` carrying chunk i |
| ChatBackend.Upsert | backend/app/main.py:167 | the keys afterwards are the old keys plus the new ids; keys not written keep their values |
| ChatBackend.UpsertDistinct | backend/app/main.py:167 | with distinct ids, every vector's text is stored under its id |
| ChatBackend.IndexOfUpload | backend/app/main.py:164-167 | ingesting into a cleared namespace yields exactly the ids `filename-0` .. `filename-(n-1)`, each holding its chunk |
| ChatBackend.UploadReply | backend/app/main.py:169-171 | the upload reply is "New session started. Successfully indexed '" or "No text extracted from '", by whether anything was indexed, then the file name, then "'." |
| ChatBackend.UploadReplyInjective | backend/app/main.py:169-171 | two upload replies are equal exactly when the file names and the indexed flags are |
| ChatBackend.Ingest | backend/app/main.py:149-171 | an upload keeps the profile and clears the chat rows and the namespace before anything else, so a file the reader cannot open fails with that cleared state. Otherwise the request fails exactly when there are chunks and embedding or upserting them fails, again leaving the cleared state. A successful upload replies by whether anything was indexed. One upload row is stored and the namespace is non-empty exactly when chunks were indexed |
| ChatBackend.Respond | backend/app/main.py:173-199 | a query updates the profile before anything can fail and keeps the namespace. A personal-information query is answered from the updated profile. Any other query gets exactly the agent's outcome, with the profile, the namespace and the latest stored history followed by the query as input. An answer is stored as one chat row. A failed agent call leaves the table unchanged |
| ChatBackend.Chat | backend/app/main.py:147-201 | a file is ingested whatever the query says; otherwise a non-empty query is answered; with neither, nothing changes and the reply is "Please provide a query or a file." |
| ChatBackend.FileTakesPrecedence | backend/app/main.py:149-173 | with a file, the query and the agent make no difference |
| ChatBackend.UploadForgetsHistory | backend/app/main.py:159-168 | after an upload, successful or failed, the history given to the agent is empty, whatever the limit |
| ChatBackend.UploadIndexesChunks | backend/app/main.py:154-167 | after a successful upload the namespace holds exactly the ids `filename-0` .. `filename-(n-1)` of the new file's chunks, each with its chunk text; after a failed one it is empty; no earlier vector survives either way |
| ChatBackend.FailedUploadEndsSession | backend/app/main.py:152-167 | a failed upload still keeps the profile, empties the namespace, removes every chat row and adds no upload row |
| ChatBackend.FailedQueryStillRemembers | backend/app/main.py:176-198 | a query whose agent call fails stores no row but its stated name is remembered: the next personal-information query is answered with it |
| ChatBackend.MemoryOnlyGrows | backend/app/main.py:147-201 | no request, failed or not, resets a profile field that is set back to `None` |
| ChatBackend.NameAnsweredInSameQuery | backend/app/main.py:177-191 | a name stated in a personal-information query is used in that query's own reply |
| ChatBackend.AgentSeesRecentHistory | backend/app/main.py:194-199 | the request's outcome is the agent's outcome: its answer, or a failure when the agent fails. The agent receives the updated profile, the namespace, the latest five chat exchanges oldest first, and then the query |
| ChatBackend.ShouldContinue | backend/app/main.py:85-86 | the route is `take_action` exactly when the last message requests a tool call; an empty message list has no route |
| ChatBackend.RouteByLastMessage | backend/app/main.py:85-86 | only the last message decides the route |
| ChatClient.UserLine | frontend/src/components/ChatInterface.js:12 | "You asked: " plus the query whenever the query is non-empty, even if it is only blanks; "You uploaded: " plus the file name otherwise |
| ChatClient.Request | frontend/src/components/ChatInterface.js:15-17 | the form carries `query` exactly when it is non-empty, and `file` exactly when one is chosen |
| ChatClient.Begin | frontend/src/components/ChatInterface.js:12-19 | starting a send appends the user line to the transcript, sets the loading flag and keeps the query and the file |
| ChatClient.ResponseLine | frontend/src/components/ChatInterface.js:24-27 | the line starts with "LLM Response: " exactly when the backend replied, and then continues with exactly the reply; a failure gives "Error: Failed to connect to backend." |
| ChatClient.Finish | frontend/src/components/ChatInterface.js:21-32 | whatever the outcome, its line is appended and the query, the file and the loading flag are reset |
| ChatClient.Send | frontend/src/components/ChatInterface.js:9-33 | nothing happens when the trimmed query is empty and there is no file; otherwise exactly two lines are appended after the unchanged earlier ones (the user line, then the response or error line), and the panel is reset |
| ChatClient.FileChange | frontend/src/components/ChatInterface.js:35 | the first picked file becomes the chosen file; a cancelled pick clears it |
| ChatClient.FileRemove | frontend/src/components/ChatInterface.js:36 | the chosen file is cleared and nothing else changes |
| ChatClient.TypeQuery | frontend/src/components/ChatInterface.js:92 | the query becomes exactly the typed text |
| ChatClient.KeyDown | frontend/src/components/ChatInterface.js:94-99 | Enter without Shift sends; any other key leaves the panel unchanged |
| ChatClient.BlankSendIsNoOp | frontend/src/components/ChatInterface.js:10 | a blank query without a file changes nothing |
| ChatClient.StepKeepsTranscript | frontend/src/components/ChatInterface.js:9-36 | one interaction keeps earlier lines and the alternation of user and response lines |
| ChatClient.TranscriptOnlyGrows | frontend/src/components/ChatInterface.js:9-36 | when every send's reply arrives before the next event, shown lines are never changed or removed, lines alternate user then response, and the panel ends idle |
| ChatClient.Press | frontend/src/components/ChatInterface.js:9-19 | Enter without Shift, with something to send, shows the user line, sets the loading flag, keeps the query and the file, and leaves one more request in flight, whether or not others are pending; anything else changes nothing |
| ChatClient.Arrive | frontend/src/components/ChatInterface.js:21-32 | a pending request settling shows its response or error line, clears the query, the file and the loading flag, and leaves one request fewer in flight; with nothing pending nothing happens |
| ChatClient.PanelStepKeeps | frontend/src/components/ChatInterface.js:9-99 | any one event, under any interleaving of sends and replies, keeps every line a user or response line, keeps the transcript balanced (no prefix with more response lines than user lines) and keeps the unanswered user lines equal to the requests in flight; it adds at most one line and changes none |
| ChatClient.IdleKeeps | frontend/src/components/ChatInterface.js:4-7 | the panel as first rendered, with an empty transcript and nothing in flight, meets that invariant |
| ChatClient.PanelRunKeeps | frontend/src/components/ChatInterface.js:9-99 | the same over any sequence of edits, presses and settling requests: lines are only appended, and every prefix has at least as many user lines as response lines |
| ChatClient.PressThenArriveIsSend | frontend/src/components/ChatInterface.js:9-33 | a press of Enter whose request settles before anything else happens is exactly the atomic `Send` |
| ChatClient.SecondEnterBeforeReply | frontend/src/components/ChatInterface.js:9-27 | pressing Enter twice before the first reply shows the same user line twice in a row, and the transcript stops alternating |
| ChatClient.SettlingDiscardsEdits | frontend/src/components/ChatInterface.js:28-31 | text typed while a request is in flight is wiped when it settles, and the loading flag goes off while a second request is still in flight |
| ChatClient.AskScenario | frontend/src/components/ChatInterface.js:12-29 | asking "hello" and receiving "Hi there!" shows "You asked: hello" then "LLM Response: Hi there!" and clears the box |
| ChatClient.WhitespaceQueryWithFile | frontend/src/components/ChatInterface.js:10-17 | a query of one blank with a file is sent and echoed as a question, and the form carries both |
| ComponentForm.Submit | frontend/src/components/CustomComponentForm.js:6-12 | no call exactly when the name is blank after trimming, and then the field is unchanged; otherwise one call with the untrimmed name and kind 'default', and the field is cleared |
| ComponentForm.Step | frontend/src/components/CustomComponentForm.js:6-22 | typing sets the field to exactly the typed text and makes no call; pressing Add leaves the field as `handleSubmit` does and makes one new call exactly when the field is not blank; earlier calls never change; a new call carries the field as it was with kind 'default' and clears the field |
| ComponentForm.Run | frontend/src/components/CustomComponentForm.js:6-22 | over any sequence of typing and presses, earlier calls are kept, there are at most as many new calls as events, and every new call has a non-blank name that was the field at the start or some typed text |
| ComponentForm.TypeThenSubmit | frontend/src/components/CustomComponentForm.js:6-22 | typing a text and pressing Add calls back with exactly that text and clears the field, unless the text is blank, in which case no call is made and the text stays in the field |
| ComponentForm.SubmitTwice | frontend/src/components/CustomComponentForm.js:8-11 | a submit right after an accepted one makes no call |
| ComponentForm.UntrimmedName | frontend/src/components/CustomComponentForm.js:10 | " Parser " is passed on with its surrounding blanks |

## Left out

- ReactFlow internals are taken as opaque function parameters: `project`, `applyNodeChanges`, `applyEdgeChanges` and `addEdge`. Their code is not part of this model.
- Positions are integers. Viewport maths, zoom and floating-point coordinates are not modelled.
- React rendering, styling, state batching, effect re-registration and stale closures are not modelled. Handlers run one at a time, each to completion.
- ChatClient.Send: each send is treated as atomic, with its reply arriving before the next event. In the program `sendData` awaits `fetch`, nothing checks `loading`, and the input stays enabled. Overlapping sends therefore interleave their lines, and a request that settles wipes input typed while it was in flight. The `Panel` part of the module models this, with `Press`, `Arrive`, `PanelStepKeeps` and `SecondEnterBeforeReply`.
- ChatClient.TranscriptOnlyGrows: the alternation of user and response lines holds only when every send's reply arrives before the next event. Under overlapping sends, `PanelRunKeeps` states what still holds: lines are only appended and no prefix has more responses than user lines.
- Which pending request a reply belongs to is not modelled. Every `fetch` settles with a line that depends only on its outcome, and with the same reset.
- ChatClient.Send: the network request is reduced to its outcome. An OK reply carries `response`; every failure, non-2xx status or bad body is one `Failed`.
- `onDragOver`, the `Background` component and the rest of the JSX are not modelled. They hold no state.
- The rendering of frontend/src/components/ComponentLibraryPanel.js is not modelled. Its drag start only supplies the payload string that `Editor.Drop` receives.
- Editor.AddComponent: the panel is declared without props, so the `addComponent` callback App passes it (frontend/src/App.js:47-55) is never invoked in the program. The model keeps the callback as written. Its properties, such as `EditorProperties.AddComponentWellFormedIff` and the fixed-mode clause of `Editor.Step`, describe what would happen if a caller invoked it.
- ComponentForm: App never renders `CustomComponentForm`, so nothing supplies `addCustomComponent`. The model records each callback invocation as a `Submitted` call instead of following it into the editor.
- The vector store, OpenAI embeddings, the `describe_index_stats` check, PDF text extraction and db/vector_db.py are not modelled. The namespace is a map from vector id to chunk text. The extracted PDF text is an input, `None` when the reader raises. Whether embedding and upserting the chunks succeeds is an input too.
- The LangGraph agent is a parameter. This covers `call_llm`, `take_action`, `rag_retriever_tool` and the graph itself.
- ChatBackend.ShouldContinue: the error raised on a non-model message (which has no `tool_calls`) is not modelled, because messages here always carry a tool-call list.
- SQLite mechanics are not modelled: connections, files, the `id` and `timestamp` columns, and the order of rows with equal `CURRENT_TIMESTAMP`. The table is an append-ordered sequence, and "latest" means "last appended".
- ConversationStore.Store: requires the table to exist. `init_db` runs at start-up, and the exception SQLite raises otherwise is not modelled.
- ChatBackend.Chat: requires the table to exist, for the same reason.
- ChatBackend.Chat: failures of `describe_index_stats`, `delete`, `clear_conversations` and `store_conversation` are not modelled. Each would raise with only part of the request's changes applied. A failed embeddings or upsert call is taken to leave the cleared namespace empty; a partly applied upsert is not modelled.
- The `startup_event` and `read_root` endpoints, logging, and the JSON wrapping of replies are not modelled.
- An upload whose filename is `None` is not modelled. Filenames are strings.
- UserMemory.NameCapture: `\w` is ASCII letters, digits and `_`. Python matches Unicode word characters in `str` patterns.
- UserMemory.AgeCapture: `\d` is ASCII digits only. Python also accepts other Unicode decimal digits.
- UserMemory.BirthCapture: `\w` is ASCII here as well.

=== FILE: chat_backend.dfy ===
/** The `/chat` endpoint of backend/app/main.py with its external services
    taken as values: the text extracted from an uploaded PDF is part of the
    upload, the vector index is a map from vector id to chunk text, and the
    embeddings service and the agent are functions that either succeed or
    raise. */
module ChatBackend {
  import opened Wrappers
  import opened Text
  import opened Seqs
  import opened ConversationStore
  import opened UserMemory

  /** An uploaded file: its name and the text its pages yield, or `None`
      when the PDF reader cannot open its bytes and raises. */
  datatype Upload = Upload(filename: string, text: Option<string>)

  /** The state a request sees: the in-memory profile, the conversation
      table, and the document namespace of the vector index. */
  datatype Server = Server(memory: Memory, db: Db, index: map<string, string>)

  /** What a request leaves behind: a reply, or an exception raised by an
      outside call (answered with status 500) together with whatever the
      request changed before the call. */
  datatype Answer = Answer(response: string, server: Server) | Failed(server: Server)
  {
    /** The reply the client receives, if any. */
    function Reply(): Option<string> {
      if Answer? then Some(response) else None
    }
  }

  /** The agent's final answer given the profile (its system prompt), the
      indexed documents (its retrieval tool) and the history ending in the
      user's query; `None` when the invocation raises. */
  type Agent = (Memory, map<string, string>, seq<Turn>) -> Option<string>

  /** The outside calls a request makes: whether embedding the given chunks
      and upserting their vectors succeeds, and the agent. */
  datatype Services = Services(ingest: seq<string> -> bool, agent: Agent)

  /** How many stored exchanges (rows) of history the agent is given; each
      becomes a user turn and an assistant turn. */
  const HistoryLimit: int := 5

  // ---- chunking ----

  predicate IsNonEmpty(s: string) {
    s != []
  }

  /** Every line of `text` stripped of surrounding whitespace. */
  function StrippedLines(text: string): (r: seq<string>)
    ensures |r| == |Split(text, '\n')| == Count(text, '\n') + 1
    ensures forall i :: 0 <= i < |r| ==> r[i] == PyStrip(Split(text, '\n')[i])
  {
    var lines := Split(text, '\n');
    seq(|lines|, i requires 0 <= i < |lines| => PyStrip(lines[i]))
  }

  /** `[chunk.strip() for chunk in full_text.split('\n') if chunk.strip()]`:
      the non-blank lines, stripped, in their order. */
  function Chunks(text: string): (cs: seq<string>)
    ensures |cs| <= Count(text, '\n') + 1
    ensures IsSubsequence(cs, StrippedLines(text))
    ensures forall c :: multiset(cs)[c] == if c == [] then 0 else multiset(StrippedLines(text))[c]
    ensures forall i :: 0 <= i < |cs| ==> cs[i] != [] && PyStrip(cs[i]) == cs[i] && '\n' !in cs[i]
    ensures forall c :: c in cs <==> c != [] && exists line :: line in Split(text, '\n') && PyStrip(line) == c
    ensures cs == [] <==> AllIn(text, IsPySpace)
  {
    var cs := Filter(StrippedLines(text), IsNonEmpty);
    FilteredMembers(text);
    FilteredLinesStripped(text);
    FilteredLinesEmpty(text);
    cs
  }

  /** A chunk is a non-empty strip of some line. */
  lemma FilteredMembers(text: string)
    ensures forall c :: c in Filter(StrippedLines(text), IsNonEmpty) <==>
                        c != [] && exists line :: line in Split(text, '\n') && PyStrip(line) == c
  {
    StrippedMembers(text);
  }

  /** A stripped line is the strip of some line. */
  lemma StrippedMembers(text: string)
    ensures forall c :: c in StrippedLines(text) <==> exists line :: line in Split(text, '\n') && PyStrip(line) == c
  {
    var lines := Split(text, '\n');
    var stripped := StrippedLines(text);
    forall c | c in stripped ensures exists line :: line in lines && PyStrip(line) == c {
      var i :| 0 <= i < |stripped| && stripped[i] == c;
      assert lines[i] in lines;
    }
    forall c | exists line :: line in lines && PyStrip(line) == c ensures c in stripped {
      var line :| line in lines && PyStrip(line) == c;
      var i :| 0 <= i < |lines| && lines[i] == line;
      assert stripped[i] == c;
    }
  }

  /** Each kept line is already stripped and holds no line break. */
  lemma FilteredLinesStripped(text: string)
    ensures var cs := Filter(StrippedLines(text), IsNonEmpty);
            forall i :: 0 <= i < |cs| ==> cs[i] != [] && PyStrip(cs[i]) == cs[i] && '\n' !in cs[i]
  {
    var lines := Split(text, '\n');
    var stripped := StrippedLines(text);
    var cs := Filter(stripped, IsNonEmpty);
    forall i | 0 <= i < |cs| ensures cs[i] != [] && PyStrip(cs[i]) == cs[i] && '\n' !in cs[i] {
      assert cs[i] in stripped;
      var j :| 0 <= j < |stripped| && stripped[j] == cs[i];
      TrimByIdempotent(lines[j], IsPySpace);
    }
  }

  /** Nothing is kept exactly when the text is all whitespace. */
  lemma FilteredLinesEmpty(text: string)
    ensures Filter(StrippedLines(text), IsNonEmpty) == [] <==> AllIn(text, IsPySpace)
  {
    NoneNonEmpty(StrippedLines(text));
    if AllIn(text, IsPySpace) {
      forall i | 0 <= i < |StrippedLines(text)| ensures StrippedLines(text)[i] == [] {
        LineOfBlankText(text, i);
      }
    } else {
      SplitAllIn(text, '\n', IsPySpace);
      var lines := Split(text, '\n');
      var i :| 0 <= i < |lines| && !AllIn(lines[i], IsPySpace);
      assert StrippedLines(text)[i] != [];
    }
  }

  lemma NoneNonEmpty(xs: seq<string>)
    ensures Filter(xs, IsNonEmpty) == [] <==> forall i :: 0 <= i < |xs| ==> xs[i] == []
  {
    FilterEmpty(xs, IsNonEmpty);
  }

  lemma LineOfBlankText(text: string, j: nat)
    requires AllIn(text, IsPySpace) && j < |Split(text, '\n')|
    ensures AllIn(Split(text, '\n')[j], IsPySpace)
  {
    SplitAllIn(text, '\n', IsPySpace);
  }

  // ---- vectors ----

  /** `f"{file.filename}-{i}"`. */
  function VectorId(filename: string, i: nat): (r: string)
    ensures |r| > |filename| + 1 && r[..|filename| + 1] == filename + "-"
    ensures AllIn(r[|filename| + 1..], IsAsciiDigit)
  {
    var r := filename + "-" + NatToString(i);
    assert r[|filename| + 1..] == NatToString(i);
    r
  }

  /** One file's vector ids never collide. */
  lemma VectorIdInjective(filename: string, i: nat, j: nat)
    ensures VectorId(filename, i) == VectorId(filename, j) <==> i == j
  {
    if i != j {
      PrefixedNumbersDistinct(filename + "-", i, j);
    }
  }

  /** The `(id, text)` pair of each chunk, numbered from 0. */
  function Vectors(filename: string, cs: seq<string>): (vs: seq<(string, string)>)
    ensures |vs| == |cs|
    ensures forall i, j :: 0 <= i < j < |vs| ==> vs[i].0 != vs[j].0
    ensures forall i :: 0 <= i < |vs| ==> vs[i].1 == cs[i] && vs[i].0 == VectorId(filename, i)
  {
    var vs := seq(|cs|, i requires 0 <= i < |cs| => (VectorId(filename, i), cs[i]));
    forall i, j | 0 <= i < j < |vs| ensures vs[i].0 != vs[j].0 {
      VectorIdInjective(filename, i, j);
    }
    vs
  }

  /** The ids of a list of vectors. */
  function Ids(vs: seq<(string, string)>): set<string> {
    set i | 0 <= i < |vs| :: vs[i].0
  }

  /** `index.upsert(vectors)`: each vector in turn inserted, replacing any
      vector with the same id. */
  function Upsert(index: map<string, string>, vs: seq<(string, string)>): (r: map<string, string>)
    ensures r.Keys == index.Keys + Ids(vs)
    ensures forall k :: k in index && k !in Ids(vs) ==> r[k] == index[k]
    decreases |vs|
  {
    if |vs| == 0 then index
    else
      var r := Upsert(index[vs[0].0 := vs[0].1], vs[1..]);
      assert Ids(vs) == {vs[0].0} + Ids(vs[1..]) by {
        forall k | k in Ids(vs) ensures k in {vs[0].0} + Ids(vs[1..]) {
          var i :| 0 <= i < |vs| && vs[i].0 == k;
          if i > 0 { assert vs[1..][i - 1].0 == k; }
        }
        forall k | k in Ids(vs[1..]) ensures k in Ids(vs) {
          var i :| 0 <= i < |vs[1..]| && vs[1..][i].0 == k;
          assert vs[i + 1].0 == k;
        }
      }
      r
  }

  /** With distinct ids, every vector ends up in the index as given. */
  lemma {:induction false} UpsertDistinct(index: map<string, string>, vs: seq<(string, string)>)
    requires forall i, j :: 0 <= i < j < |vs| ==> vs[i].0 != vs[j].0
    ensures forall i :: 0 <= i < |vs| ==> vs[i].0 in Upsert(index, vs) && Upsert(index, vs)[vs[i].0] == vs[i].1
    decreases |vs|
  {
    if |vs| > 0 {
      var next := index[vs[0].0 := vs[0].1];
      var tail := vs[1..];
      UpsertDistinct(next, tail);
      assert forall i :: 0 <= i < |tail| ==> tail[i] == vs[i + 1];
      assert vs[0].0 !in Ids(tail);
      forall i | 1 <= i < |vs| ensures Upsert(index, vs)[vs[i].0] == vs[i].1 {
        assert vs[i] == tail[i - 1];
      }
    }
  }

  /** The namespace after ingesting a file into an empty one holds exactly
      one vector per chunk, `filename-i` carrying chunk `i`. */
  lemma IndexOfUpload(filename: string, cs: seq<string>)
    ensures var index := Upsert(map[], Vectors(filename, cs));
            && index.Keys == (set i | 0 <= i < |cs| :: VectorId(filename, i))
            && forall i :: 0 <= i < |cs| ==> index[VectorId(filename, i)] == cs[i]
  {
    var vs := Vectors(filename, cs);
    UpsertDistinct(map[], vs);
    assert Ids(vs) == (set i | 0 <= i < |cs| :: VectorId(filename, i));
  }

  // ---- the endpoint ----

  const IndexedPrefix: string := "New session started. Successfully indexed '"
  const NoTextPrefix: string := "No text extracted from '"

  /** The reply to an upload, by whether any chunk was found: a fixed
      phrase, then the file name in quotes and a period. */
  function UploadReply(filename: string, indexed: bool): (r: string)
    ensures var prefix := if indexed then IndexedPrefix else NoTextPrefix;
            && |r| == |prefix| + |filename| + 2
            && r[..|prefix|] == prefix
            && r[|prefix|..|prefix| + |filename|] == filename
            && r[|prefix| + |filename|..] == "'."
  {
    var prefix := if indexed then IndexedPrefix else NoTextPrefix;
    var r := prefix + filename + "'.";
    assert r[..|prefix|] == prefix;
    assert r[|prefix|..|prefix| + |filename|] == filename;
    r
  }

  /** The reply tells the user which file it was about and whether it was
      indexed. */
  lemma UploadReplyInjective(f1: string, b1: bool, f2: string, b2: bool)
    ensures UploadReply(f1, b1) == UploadReply(f2, b2) <==> f1 == f2 && b1 == b2
  {
    var r1, r2 := UploadReply(f1, b1), UploadReply(f2, b2);
    if r1 == r2 {
      assert b1 == b2 by {
        var p1 := if b1 then IndexedPrefix else NoTextPrefix;
        var p2 := if b2 then IndexedPrefix else NoTextPrefix;
        assert r1[1] == r1[..|p1|][1] == p1[1];
        assert r2[1] == r2[..|p2|][1] == p2[1];
        assert IndexedPrefix[1] == 'e' && NoTextPrefix[1] == 'o';
      }
      var n := if b1 then |IndexedPrefix| else |NoTextPrefix|;
      assert f1 == r1[n..n + |f1|] == r2[n..n + |f2|] == f2;
    }
  }

  const NothingToDo: string := "Please provide a query or a file."

  /** The file branch of `chat`: the document namespace and the chat rows
      are cleared first and the profile is kept. A file the reader cannot
      open then fails the request; otherwise the file's chunks are embedded
      and indexed, with one upload row stored, and a failing embeddings or
      upsert call fails the request with the cleared state left behind. */
  function Ingest(srv: Server, u: Upload, svc: Services): (a: Answer)
    requires srv.db.Present?
    ensures a.server.db.Present? && a.server.memory == srv.memory
    ensures u.text.None? ==> a == Failed(Server(srv.memory, Clear(srv.db), map[]))
    ensures u.text.Some? ==>
              var cs := Chunks(u.text.value);
              var ingested := a.Answer? && cs != [];
              && (a.Failed? <==> cs != [] && !svc.ingest(cs))
              && (a.Answer? ==> a.response == UploadReply(u.filename, cs != []))
              && a.server.db.rows == UploadRows(srv.db.rows)
                                     + (if ingested then [Row("File Upload", u.text.value, "Document ingested successfully.", true)] else [])
              && (a.server.index == map[] <==> !ingested)
  {
    var cleared := Server(srv.memory, Clear(srv.db), map[]);
    match u.text
    case None => Failed(cleared)
    case Some(text) =>
      var cs := Chunks(text);
      if cs == [] then Answer(UploadReply(u.filename, false), cleared)
      else if !svc.ingest(cs) then Failed(cleared)
      else
        var index := Upsert(map[], Vectors(u.filename, cs));
        assert VectorId(u.filename, 0) in index by { IndexOfUpload(u.filename, cs); }
        var db := Store(cleared.db, "File Upload", text, "Document ingested successfully.", true);
        assert db.rows == cleared.db.rows + [Row("File Upload", text, "Document ingested successfully.", true)];
        Answer(UploadReply(u.filename, true), Server(srv.memory, db, index))
  }

  /** The query branch of `chat`: the profile is updated first, then the
      query is answered from the profile when it asks for personal
      information and by the agent otherwise. An answer is stored as one
      chat row; a failing agent leaves the updated profile and no row. */
  function Respond(srv: Server, q: string, svc: Services): (a: Answer)
    requires srv.db.Present?
    ensures a.server.db.Present?
    ensures a.server.memory == ExtractUserInfo(q, srv.memory)
    ensures a.server.index == srv.index
    ensures a.Answer? ==> a.server.db.rows == srv.db.rows + [Row(q, "", a.response, false)]
    ensures a.Failed? ==> a.server.db == srv.db
    ensures AsksPersonalInfo(q) ==> a.Answer? && a.response == PersonalReply(a.server.memory)
    ensures !AsksPersonalInfo(q) ==>
              a.Reply() == svc.agent(a.server.memory, srv.index, Recent(srv.db, HistoryLimit) + [Turn(User, q)])
  {
    var memory := ExtractUserInfo(q, srv.memory);
    var reply := if AsksPersonalInfo(q) then Some(PersonalReply(memory))
                 else svc.agent(memory, srv.index, Recent(srv.db, HistoryLimit) + [Turn(User, q)]);
    match reply
    case None => Failed(Server(memory, srv.db, srv.index))
    case Some(text) =>
      var db := Store(srv.db, q, "", text, false);
      assert db.rows == srv.db.rows + [Row(q, "", text, false)];
      Answer(text, Server(memory, db, srv.index))
  }

  /** `chat(query, file)`. A file wins over a query; a non-empty query is
      answered; with neither, nothing changes. The table exists throughout
      (`init_db` runs at start-up). */
  function Chat(srv: Server, query: Option<string>, file: Option<Upload>, svc: Services): (a: Answer)
    requires srv.db.Present?
    ensures a.server.db.Present?
    ensures file.Some? ==> a == Ingest(srv, file.value, svc)
    ensures file.None? && query.Some? && query.value != [] ==> a == Respond(srv, query.value, svc)
    ensures file.None? && (query.None? || query.value == []) ==> a == Answer(NothingToDo, srv)
  {
    match file
    case Some(u) => Ingest(srv, u, svc)
    case None =>
      if query.Some? && query.value != [] then Respond(srv, query.value, svc)
      else Answer(NothingToDo, srv)
  }

  /** A file wins: what the query says and what the agent would answer make
      no difference to a request that carries a file. */
  lemma FileTakesPrecedence(srv: Server, q1: Option<string>, q2: Option<string>, u: Upload,
                            ingest: seq<string> -> bool, agent1: Agent, agent2: Agent)
    requires srv.db.Present?
    ensures Chat(srv, q1, Some(u), Services(ingest, agent1)) == Chat(srv, q2, Some(u), Services(ingest, agent2))
  {
  }

  /** An upload starts a new session, whether or not it succeeds: whatever
      was said before, the history the agent is given next is empty. */
  lemma UploadForgetsHistory(srv: Server, query: Option<string>, u: Upload, svc: Services, limit: int)
    requires srv.db.Present?
    ensures Recent(Chat(srv, query, Some(u), svc).server.db, limit) == []
  {
    var a := Ingest(srv, u, svc);
    var cleared := Clear(srv.db);
    ClearForgetsHistory(srv.db, limit);
    if a.server.index != map[] {
      var text := u.text.value;
      assert a.server.db == Store(cleared, "File Upload", text, "Document ingested successfully.", true);
      StoreUploadKeepsRecent(cleared, "File Upload", text, "Document ingested successfully.", limit);
    } else {
      assert a.server.db == cleared;
    }
  }

  /** After an upload the namespace holds exactly the new file's chunks,
      chunk `i` under `filename-i`, when the request succeeds, and nothing
      when it fails; nothing from earlier documents is left either way. */
  lemma UploadIndexesChunks(srv: Server, query: Option<string>, u: Upload, svc: Services)
    requires srv.db.Present?
    ensures var a := Chat(srv, query, Some(u), svc);
            var cs := if a.Answer? then Chunks(u.text.value) else [];
            && a.server.index.Keys == (set i | 0 <= i < |cs| :: VectorId(u.filename, i))
            && forall i :: 0 <= i < |cs| ==> a.server.index[VectorId(u.filename, i)] == cs[i]
  {
    var a := Chat(srv, query, Some(u), svc);
    if a.Answer? {
      IndexOfUpload(u.filename, Chunks(u.text.value));
    }
  }

  /** A failed upload still ends the old session: the profile is kept, the
      namespace is empty, no chat row remains and no upload row is added. */
  lemma FailedUploadEndsSession(srv: Server, query: Option<string>, u: Upload, svc: Services)
    requires srv.db.Present?
    requires Chat(srv, query, Some(u), svc).Failed?
    ensures var s := Chat(srv, query, Some(u), svc).server;
            && s.memory == srv.memory
            && s.index == map[]
            && s.db.rows == UploadRows(srv.db.rows)
            && ChatRows(s.db.rows) == []
  {
    var rows := UploadRows(srv.db.rows);
    NoChatRows(rows);
  }

  /** A failed agent call is not recorded, but what the query said about the
      user is: with an empty profile, a query stating a name whose answer
      fails, followed by a query asking for personal information that
      states nothing new, is answered with that name. */
  lemma FailedQueryStillRemembers(srv: Server, q1: string, q2: string, svc: Services)
    requires srv.db.Present? && srv.memory == Unknown
    requires q1 != [] && !AsksPersonalInfo(q1)
    requires NameCapture(q1).Some? && AgeCapture(q1).None? && BirthCapture(q1).None?
    requires Chat(srv, Some(q1), None, svc).Failed?
    requires q2 != [] && AsksPersonalInfo(q2)
    requires NameCapture(q2).None? && AgeCapture(q2).None? && BirthCapture(q2).None?
    ensures var s := Chat(srv, Some(q1), None, svc).server;
            && s.db == srv.db
            && Chat(s, Some(q2), None, svc).response == "Your name is " + NameCapture(q1).value + "."
  {
    var s := Chat(srv, Some(q1), None, svc).server;
    var m := ExtractUserInfo(q1, Unknown);
    assert s.memory == m;
    assert ExtractUserInfo(q2, m) == m;
    assert KnownText(m.name) && !KnownAge(m.age) && !KnownText(m.birthplace);
    assert ReplyParts(m) == ["Your name is " + NameCapture(q1).value];
  }

  /** Once a profile field is set, no request resets it to `None`. */
  lemma MemoryOnlyGrows(srv: Server, query: Option<string>, file: Option<Upload>, svc: Services)
    requires srv.db.Present?
    ensures var m := Chat(srv, query, file, svc).server.memory;
            && (srv.memory.name.Some? ==> m.name.Some?)
            && (srv.memory.age.Some? ==> m.age.Some?)
            && (srv.memory.birthplace.Some? ==> m.birthplace.Some?)
  {
  }

  /** Facts stated in a query are used in that query's own reply: with an
      empty profile, a query that states a name and nothing else and asks
      for personal information is answered with that name. */
  lemma NameAnsweredInSameQuery(srv: Server, q: string, svc: Services)
    requires srv.db.Present? && srv.memory == Unknown
    requires AsksPersonalInfo(q)
    requires AgeCapture(q).None? && BirthCapture(q).None?
    requires NameCapture(q).Some?
    ensures Chat(srv, Some(q), None, svc).response == "Your name is " + NameCapture(q).value + "."
  {
    var m := ExtractUserInfo(q, Unknown);
    assert KnownText(m.name) && !KnownAge(m.age) && !KnownText(m.birthplace);
    assert ReplyParts(m) == ["Your name is " + NameCapture(q).value];
  }

  /** A query that is not about personal information goes to the agent with
      the latest five exchanges, oldest first, and the query itself; the
      request succeeds exactly when the agent does, with its answer. */
  lemma AgentSeesRecentHistory(srv: Server, q: string, svc: Services)
    requires srv.db.Present? && q != [] && !AsksPersonalInfo(q)
    ensures var chats := ChatRows(srv.db.rows);
            var k := LimitCount(|chats|, HistoryLimit);
            Chat(srv, Some(q), None, svc).Reply()
              == svc.agent(ExtractUserInfo(q, srv.memory), srv.index, Turns(chats[|chats| - k..]) + [Turn(User, q)])
  {
    assert Chat(srv, Some(q), None, svc) == Respond(srv, q, svc);
    assert srv.db == Present(srv.db.rows);
    RecentIsLatestChats(srv.db.rows, HistoryLimit);
  }

  // ---- the agent graph's router ----

  /** A tool call the model asks for; its arguments are left out. */
  datatype ToolCall = ToolCall(name: string, id: string)

  /** A model message: its text and the tool calls it requests. */
  datatype AgentMessage = AgentMessage(content: string, toolCalls: seq<ToolCall>)

  datatype Route = TakeAction | End

  /** `should_continue`: run the tools when the last message asks for any,
      finish otherwise; an empty message list has no last message (`None`). */
  function ShouldContinue(messages: seq<AgentMessage>): (r: Option<Route>)
    ensures r.None? <==> messages == []
    ensures r == Some(TakeAction) <==> messages != [] && messages[|messages| - 1].toolCalls != []
  {
    if messages == [] then None
    else if messages[|messages| - 1].toolCalls != [] then Some(TakeAction)
    else Some(End)
  }

  /** Only the last message decides the route. */
  lemma RouteByLastMessage(earlier: seq<AgentMessage>, last: AgentMessage)
    ensures ShouldContinue(earlier + [last]) == ShouldContinue([last])
  {
  }
}

=== FILE: chat_client.dfy ===
/** The chat panel of frontend/src/components/ChatInterface.js: the query
    box, the chosen file, the loading flag and the transcript of lines shown
    to the user. The request to the back end is abstracted to its outcome. */
module ChatClient {
  import opened Wrappers
  import opened Text

  /** A file chosen in the file picker; only its name is shown. */
  datatype File = File(name: string)

  datatype ChatView = ChatView(query: string, file: Option<File>, loading: bool, transcript: seq<string>)

  /** The multipart form sent to `/chat`: each field present or absent. */
  datatype FormData = FormData(query: Option<string>, file: Option<File>)

  /** How the request ended: a successful reply carrying the back end's
      `response`, or any failure (network error, non-2xx status, bad body). */
  datatype Outcome = Replied(response: string) | Failed

  /** The panel as first rendered. */
  const Empty: ChatView := ChatView("", None, false, [])

  const AskedPrefix: string := "You asked: "
  const UploadedPrefix: string := "You uploaded: "
  const ResponsePrefix: string := "LLM Response: "
  const ErrorLine: string := "Error: Failed to connect to backend."

  predicate StartsWith(s: string, prefix: string) {
    |prefix| <= |s| && s[..|prefix|] == prefix
  }

  /** `sendData` goes ahead unless the trimmed query is empty and no file is
      chosen. */
  predicate CanSend(v: ChatView) {
    JsTrim(v.query) != [] || v.file.Some?
  }

  /** The line echoing what the user sent: the query whenever it is a
      non-empty string (even all whitespace), the file's name otherwise. */
  function UserLine(v: ChatView): (line: string)
    requires CanSend(v)
    ensures v.query != [] ==> line == AskedPrefix + v.query
    ensures v.query == [] ==> line == UploadedPrefix + v.file.value.name
  {
    if v.query != [] then AskedPrefix + v.query
    else
      assert JsTrim(v.query) == [];
      UploadedPrefix + v.file.value.name
  }

  /** The form: `query` only when it is a non-empty string, `file` only when
      one is chosen. */
  function Request(v: ChatView): (form: FormData)
    ensures form.query.Some? <==> v.query != []
    ensures form.query.Some? ==> form.query.value == v.query
    ensures form.file == v.file
  {
    FormData(if v.query != [] then Some(v.query) else None, v.file)
  }

  /** The line for the outcome. */
  function ResponseLine(outcome: Outcome): (r: string)
    ensures StartsWith(r, ResponsePrefix) <==> outcome.Replied?
    ensures outcome.Replied? ==> r[|ResponsePrefix|..] == outcome.response
    ensures outcome.Failed? ==> r == ErrorLine
  {
    match outcome
    case Replied(response) =>
      var r := ResponsePrefix + response;
      assert r[..|ResponsePrefix|] == ResponsePrefix;
      r
    case Failed =>
      assert ErrorLine[0] != ResponsePrefix[0];
      ErrorLine
  }

  /** The first half of `sendData`, up to the request: the user's line is
      shown and the panel is loading. */
  function Begin(v: ChatView): (r: ChatView)
    requires CanSend(v)
    ensures r.loading && r.query == v.query && r.file == v.file
    ensures r.transcript == v.transcript + [UserLine(v)]
  {
    v.(loading := true, transcript := v.transcript + [UserLine(v)])
  }

  /** The second half, whatever the outcome: its line is shown, and the
      query, the file and the loading flag are reset. */
  function Finish(v: ChatView, outcome: Outcome): (r: ChatView)
    ensures r.query == [] && r.file.None? && !r.loading
    ensures r.transcript == v.transcript + [ResponseLine(outcome)]
  {
    ChatView("", None, false, v.transcript + [ResponseLine(outcome)])
  }

  /** `sendData` with the back end's answer to the form given by `respond`. */
  function Send(v: ChatView, respond: FormData -> Outcome): (r: ChatView)
    ensures !CanSend(v) ==> r == v
    ensures CanSend(v) ==>
              && |r.transcript| == |v.transcript| + 2
              && r.transcript[..|v.transcript|] == v.transcript
              && r.transcript[|v.transcript|] == UserLine(v)
              && r.transcript[|v.transcript| + 1] == ResponseLine(respond(Request(v)))
              && r.query == [] && r.file.None? && !r.loading
  {
    if !CanSend(v) then v
    else
      var r := Finish(Begin(v), respond(Request(v)));
      assert r.transcript == v.transcript + [UserLine(v), ResponseLine(respond(Request(v)))];
      r
  }

  /** `handleFileChange`: the first of the picked files, or none when the
      picker was cancelled (`files[0]` is `undefined`). */
  function FileChange(v: ChatView, files: seq<File>): (r: ChatView)
    ensures r.file.Some? <==> files != []
    ensures files != [] ==> r.file.value == files[0]
    ensures r.query == v.query && r.loading == v.loading && r.transcript == v.transcript
  {
    v.(file := if files == [] then None else Some(files[0]))
  }

  /** `handleFileRemove`. */
  function FileRemove(v: ChatView): (r: ChatView)
    ensures r.file.None?
    ensures r.query == v.query && r.loading == v.loading && r.transcript == v.transcript
  {
    v.(file := None)
  }

  /** The query box's `onChange`. */
  function TypeQuery(v: ChatView, text: string): (r: ChatView)
    ensures r.query == text
    ensures r.file == v.file && r.loading == v.loading && r.transcript == v.transcript
  {
    v.(query := text)
  }

  /** The query box's `onKeyDown`: Enter without Shift sends. */
  function KeyDown(v: ChatView, key: string, shift: bool, respond: FormData -> Outcome): (r: ChatView)
    ensures key == "Enter" && !shift ==> r == Send(v, respond)
    ensures key != "Enter" || shift ==> r == v
  {
    if key == "Enter" && !shift then Send(v, respond) else v
  }

  datatype UiEvent =
    | Typed(text: string)
    | FilesPicked(files: seq<File>)
    | FileRemoved
    | KeyPressed(key: string, shift: bool, respond: FormData -> Outcome)

  function Step(v: ChatView, e: UiEvent): ChatView {
    match e
    case Typed(text) => TypeQuery(v, text)
    case FilesPicked(files) => FileChange(v, files)
    case FileRemoved => FileRemove(v)
    case KeyPressed(key, shift, respond) => KeyDown(v, key, shift, respond)
  }

  function Run(v: ChatView, events: seq<UiEvent>): ChatView
    decreases |events|
  {
    if events == [] then v else Run(Step(v, events[0]), events[1..])
  }

  /** The shape of a transcript: pairs of a user line followed by a
      response or error line. */
  predicate WellFormedTranscript(t: seq<string>) {
    && |t| % 2 == 0
    && (forall i :: 0 <= i < |t| && i % 2 == 0 ==>
          StartsWith(t[i], AskedPrefix) || StartsWith(t[i], UploadedPrefix))
    && (forall i :: 0 <= i < |t| && i % 2 == 1 ==>
          StartsWith(t[i], ResponsePrefix) || t[i] == ErrorLine)
  }

  /** A blank query with no file sends nothing: the panel is unchanged. */
  lemma BlankSendIsNoOp(v: ChatView, respond: FormData -> Outcome)
    requires AllIn(v.query, IsJsSpace) && v.file.None?
    ensures Send(v, respond) == v
  {
  }

  /** One step keeps the transcript's earlier lines, keeps its shape, and
      leaves the panel idle. */
  lemma StepKeepsTranscript(v: ChatView, e: UiEvent)
    requires WellFormedTranscript(v.transcript) && !v.loading
    ensures var r := Step(v, e);
            && |v.transcript| <= |r.transcript| && r.transcript[..|v.transcript|] == v.transcript
            && WellFormedTranscript(r.transcript) && !r.loading
  {
    if e.KeyPressed? && e.key == "Enter" && !e.shift && CanSend(v) {
      var outcome := e.respond(Request(v));
      UserLineShape(v);
      ResponseLineShape(outcome);
      AppendExchange(v.transcript, UserLine(v), ResponseLine(outcome));
      assert Step(v, e).transcript == v.transcript + [UserLine(v), ResponseLine(outcome)];
    }
  }

  lemma UserLineShape(v: ChatView)
    requires CanSend(v)
    ensures StartsWith(UserLine(v), AskedPrefix) || StartsWith(UserLine(v), UploadedPrefix)
  {
    var u := UserLine(v);
    if v.query != [] {
      assert u[..|AskedPrefix|] == AskedPrefix;
    } else {
      assert u[..|UploadedPrefix|] == UploadedPrefix;
    }
  }

  lemma ResponseLineShape(outcome: Outcome)
    ensures StartsWith(ResponseLine(outcome), ResponsePrefix) || ResponseLine(outcome) == ErrorLine
  {
    var l := ResponseLine(outcome);
    if outcome.Replied? {
      assert l[..|ResponsePrefix|] == ResponsePrefix;
    }
  }

  /** Appending a user line and a response line to a well-formed transcript
      keeps it well formed. */
  lemma AppendExchange(t: seq<string>, u: string, l: string)
    requires WellFormedTranscript(t)
    requires StartsWith(u, AskedPrefix) || StartsWith(u, UploadedPrefix)
    requires StartsWith(l, ResponsePrefix) || l == ErrorLine
    ensures WellFormedTranscript(t + [u, l])
  {
    var r := t + [u, l];
    forall i | 0 <= i < |r| && i % 2 == 0
      ensures StartsWith(r[i], AskedPrefix) || StartsWith(r[i], UploadedPrefix)
    {
      if i < |t| { assert r[i] == t[i]; } else { assert r[i] == u; }
    }
    forall i | 0 <= i < |r| && i % 2 == 1
      ensures StartsWith(r[i], ResponsePrefix) || r[i] == ErrorLine
    {
      if i < |t| { assert r[i] == t[i]; } else { assert r[i] == l; }
    }
  }

  /** Over any sequence of interactions, lines once shown are never changed
      or removed, every exchange is a user line followed by its response
      line, and the panel ends idle. */
  lemma {:induction false} TranscriptOnlyGrows(v: ChatView, events: seq<UiEvent>)
    requires WellFormedTranscript(v.transcript) && !v.loading
    ensures var r := Run(v, events);
            && |v.transcript| <= |r.transcript| && r.transcript[..|v.transcript|] == v.transcript
            && WellFormedTranscript(r.transcript) && !r.loading
    decreases |events|
  {
    if events != [] {
      var next := Step(v, events[0]);
      StepKeepsTranscript(v, events[0]);
      TranscriptOnlyGrows(next, events[1..]);
      var r := Run(v, events);
      assert r.transcript[..|next.transcript|] == next.transcript;
      assert r.transcript[..|v.transcript|] == next.transcript[..|v.transcript|];
    }
  }

  /** Scenario: asking "hello" and getting "Hi there!" back shows the two
      lines and clears the query box. */
  lemma AskScenario()
    ensures var v := TypeQuery(Empty, "hello");
            var r := KeyDown(v, "Enter", false, (f: FormData) => Replied("Hi there!"));
            && r.transcript == ["You asked: hello", "LLM Response: Hi there!"]
            && r.query == [] && !r.loading
  {
    assert TypeQuery(Empty, "hello") == ChatView("hello", None, false, []);
    HelloIsSendable();
    ScenarioLines();
  }

  lemma HelloIsSendable()
    ensures CanSend(ChatView("hello", None, false, []))
  {
    assert !IsJsSpace("hello"[0]);
  }

  lemma ScenarioLines()
    ensures AskedPrefix + "hello" == "You asked: hello"
    ensures ResponsePrefix + "Hi there!" == "LLM Response: Hi there!"
  {
  }

  /** Scenario: a whitespace-only query with a file chosen is still echoed
      as a question, and the request carries both fields. */
  lemma WhitespaceQueryWithFile(name: string)
    ensures var v := ChatView(" ", Some(File(name)), false, []);
            && CanSend(v)
            && UserLine(v) == "You asked:  "
            && Request(v) == FormData(Some(" "), Some(File(name)))
  {
  }

  // ---- overlapping sends ----

  /** The panel with its requests in flight. `sendData` awaits `fetch`
      between showing the user's line and showing the response, and nothing
      checks `loading` or disables the input meanwhile, so further sends can
      start while earlier ones are still pending. */
  datatype Panel = Panel(view: ChatView, pending: nat)

  /** The panel as first rendered, with nothing in flight. */
  const Idle: Panel := Panel(Empty, 0)

  /** What can happen to the panel: edits of the query box and the file
      picker, a key press in the query box, or one pending request settling
      with its outcome. */
  datatype PanelEvent =
    | Edited(text: string)
    | Picked(files: seq<File>)
    | Unpicked
    | Pressed(key: string, shift: bool)
    | Settled(outcome: Outcome)

  /** A key press: Enter without Shift starts `sendData`, which shows the
      user's line, sets the loading flag and leaves the request in flight.
      The query and the file stay as they are until a request settles. */
  function Press(p: Panel, key: string, shift: bool): (r: Panel)
    ensures key == "Enter" && !shift && CanSend(p.view) ==>
              && r.pending == p.pending + 1
              && r.view.transcript == p.view.transcript + [UserLine(p.view)]
              && r.view.query == p.view.query && r.view.file == p.view.file && r.view.loading
    ensures !(key == "Enter" && !shift && CanSend(p.view)) ==> r == p
  {
    if key == "Enter" && !shift && CanSend(p.view) then Panel(Begin(p.view), p.pending + 1) else p
  }

  /** One pending request settles: its line is shown, and its `finally`
      clears the query, the file and the loading flag, even when other
      requests are still in flight and even if the user typed or picked
      something while waiting. Nothing settles when nothing is pending. */
  function Arrive(p: Panel, outcome: Outcome): (r: Panel)
    ensures p.pending == 0 ==> r == p
    ensures p.pending > 0 ==>
              && r.pending == p.pending - 1
              && r.view.transcript == p.view.transcript + [ResponseLine(outcome)]
              && r.view.query == [] && r.view.file.None? && !r.view.loading
  {
    if p.pending == 0 then p else Panel(Finish(p.view, outcome), p.pending - 1)
  }

  function PanelStep(p: Panel, e: PanelEvent): Panel {
    match e
    case Edited(text) => p.(view := TypeQuery(p.view, text))
    case Picked(files) => p.(view := FileChange(p.view, files))
    case Unpicked => p.(view := FileRemove(p.view))
    case Pressed(key, shift) => Press(p, key, shift)
    case Settled(outcome) => Arrive(p, outcome)
  }

  function PanelRun(p: Panel, events: seq<PanelEvent>): Panel
    decreases |events|
  {
    if events == [] then p else PanelRun(PanelStep(p, events[0]), events[1..])
  }

  predicate IsUserLine(l: string) {
    StartsWith(l, AskedPrefix) || StartsWith(l, UploadedPrefix)
  }

  predicate IsReplyLine(l: string) {
    StartsWith(l, ResponsePrefix) || l == ErrorLine
  }

  /** How many lines of `t` satisfy `f`. */
  function Tally(t: seq<string>, f: string -> bool): nat
    decreases |t|
  {
    if t == [] then 0 else Tally(t[..|t| - 1], f) + (if f(t[|t| - 1]) then 1 else 0)
  }

  lemma TallyAppend(t: seq<string>, f: string -> bool, x: string)
    ensures Tally(t + [x], f) == Tally(t, f) + (if f(x) then 1 else 0)
  {
    assert (t + [x])[..|t|] == t;
  }

  /** The transcript as it grows line by line: no prefix ever holds more
      response lines than user lines. */
  predicate Balanced(t: seq<string>) {
    forall k :: 0 <= k <= |t| ==> Tally(t[..k], IsReplyLine) <= Tally(t[..k], IsUserLine)
  }

  /** What holds whatever the interleaving: every line is a user line or a
      response line, the transcript is balanced, and the user lines still
      waiting for a response are exactly the requests in flight. */
  predicate PanelInv(p: Panel) {
    Accounted(p.view.transcript, p.pending)
  }

  /** The invariant on a transcript with `n` requests in flight. */
  predicate Accounted(t: seq<string>, n: nat) {
    && (forall i :: 0 <= i < |t| ==> IsUserLine(t[i]) || IsReplyLine(t[i]))
    && Balanced(t)
    && Tally(t, IsUserLine) == Tally(t, IsReplyLine) + n
  }

  /** Showing a user line starts one more request. */
  lemma AccountUserLine(t: seq<string>, n: nat, u: string)
    requires Accounted(t, n) && IsUserLine(u)
    ensures Accounted(t + [u], n + 1)
  {
    UserLineIsNoReply(u);
    TallyAppend(t, IsUserLine, u);
    TallyAppend(t, IsReplyLine, u);
    BalancedAppend(t, u);
    AllTagged(t, u);
  }

  /** Showing a response line settles one request in flight. */
  lemma AccountReplyLine(t: seq<string>, n: nat, l: string)
    requires Accounted(t, n) && n > 0 && IsReplyLine(l)
    ensures Accounted(t + [l], n - 1)
  {
    if IsUserLine(l) {
      UserLineIsNoReply(l);
    }
    TallyAppend(t, IsUserLine, l);
    TallyAppend(t, IsReplyLine, l);
    BalancedAppend(t, l);
    AllTagged(t, l);
  }

  lemma AllTagged(t: seq<string>, x: string)
    requires forall i :: 0 <= i < |t| ==> IsUserLine(t[i]) || IsReplyLine(t[i])
    requires IsUserLine(x) || IsReplyLine(x)
    ensures var r := t + [x]; forall i :: 0 <= i < |r| ==> IsUserLine(r[i]) || IsReplyLine(r[i])
  {
    var r := t + [x];
    forall i | 0 <= i < |r| ensures IsUserLine(r[i]) || IsReplyLine(r[i]) {
      if i < |t| { assert r[i] == t[i]; }
    }
  }

  /** A user line never reads as a response line. */
  lemma UserLineIsNoReply(l: string)
    requires IsUserLine(l)
    ensures !IsReplyLine(l)
  {
    assert l[0] == 'Y';
    assert ResponsePrefix[0] == 'L' && ErrorLine[0] == 'E';
  }

  /** Appending a line keeps the transcript balanced when the whole new
      transcript is. */
  lemma BalancedAppend(t: seq<string>, x: string)
    requires Balanced(t)
    requires Tally(t + [x], IsReplyLine) <= Tally(t + [x], IsUserLine)
    ensures Balanced(t + [x])
  {
    var u := t + [x];
    forall k | 0 <= k <= |u| ensures Tally(u[..k], IsReplyLine) <= Tally(u[..k], IsUserLine) {
      if k <= |t| {
        assert u[..k] == t[..k];
      } else {
        assert u[..k] == u;
      }
    }
  }

  /** One event, in any interleaving, keeps the invariant, never changes or
      removes a shown line, and shows at most one new line. */
  lemma PanelStepKeeps(p: Panel, e: PanelEvent)
    requires PanelInv(p)
    ensures var r := PanelStep(p, e);
            && PanelInv(r)
            && p.view.transcript <= r.view.transcript
            && |r.view.transcript| <= |p.view.transcript| + 1
  {
    var t := p.view.transcript;
    if e.Pressed? && e.key == "Enter" && !e.shift && CanSend(p.view) {
      UserLineShape(p.view);
      AccountUserLine(t, p.pending, UserLine(p.view));
    } else if e.Settled? && p.pending > 0 {
      ResponseLineShape(e.outcome);
      AccountReplyLine(t, p.pending, ResponseLine(e.outcome));
    }
  }

  /** Over any sequence of edits, presses and settling requests, however
      they interleave, lines once shown are never changed or removed, no
      point of the transcript shows more responses than user lines, and the
      user lines without a response are exactly the requests in flight. */
  lemma {:induction false} PanelRunKeeps(p: Panel, events: seq<PanelEvent>)
    requires PanelInv(p)
    ensures var r := PanelRun(p, events);
            && PanelInv(r)
            && p.view.transcript <= r.view.transcript
    decreases |events|
  {
    if events != [] {
      var next := PanelStep(p, events[0]);
      PanelStepKeeps(p, events[0]);
      PanelRunKeeps(next, events[1..]);
    }
  }

  lemma IdleKeeps()
    ensures PanelInv(Idle)
  {
    assert Idle.view.transcript == [];
  }

  /** When a request settles before anything else happens, pressing Enter
      is the atomic `Send`. */
  lemma PressThenArriveIsSend(v: ChatView, n: nat, respond: FormData -> Outcome)
    ensures CanSend(v) ==>
              Arrive(Press(Panel(v, n), "Enter", false), respond(Request(v))) == Panel(Send(v, respond), n)
    ensures !CanSend(v) ==> Press(Panel(v, n), "Enter", false) == Panel(v, n)
  {
  }

  /** A second Enter before the first reply shows the user line twice in a
      row, and the transcript no longer alternates. */
  lemma SecondEnterBeforeReply(v: ChatView, o1: Outcome, o2: Outcome)
    requires CanSend(v)
    ensures var r := PanelRun(Panel(v, 0), [Pressed("Enter", false), Pressed("Enter", false), Settled(o1), Settled(o2)]);
            && r.view.transcript == v.transcript + [UserLine(v), UserLine(v), ResponseLine(o1), ResponseLine(o2)]
            && !WellFormedTranscript(r.view.transcript)
  {
    var t := PanelRun(Panel(v, 0), [Pressed("Enter", false), Pressed("Enter", false), Settled(o1), Settled(o2)]).view.transcript;
    var u := UserLine(v);
    assert t == v.transcript + [u, u, ResponseLine(o1), ResponseLine(o2)] by {
      TwoSendsRun(v, o1, o2);
      TwoSends(v, o1, o2);
    }
    UserLineShape(v);
    UserLineTwice(v.transcript, u, ResponseLine(o1), ResponseLine(o2));
  }

  /** The four events handled one by one. */
  lemma TwoSendsRun(v: ChatView, o1: Outcome, o2: Outcome)
    ensures PanelRun(Panel(v, 0), [Pressed("Enter", false), Pressed("Enter", false), Settled(o1), Settled(o2)])
            == Arrive(Arrive(Press(Press(Panel(v, 0), "Enter", false), "Enter", false), o1), o2)
  {
    var enter := Pressed("Enter", false);
    var p0 := Panel(v, 0);
    RunFour(p0, enter, enter, Settled(o1), Settled(o2));
    var p1 := PanelStep(p0, enter);
    assert p1 == Press(p0, "Enter", false);
    var p2 := PanelStep(p1, enter);
    assert p2 == Press(p1, "Enter", false);
    var p3 := PanelStep(p2, Settled(o1));
    assert p3 == Arrive(p2, o1);
    assert PanelStep(p3, Settled(o2)) == Arrive(p3, o2);
  }

  lemma RunThree(p: Panel, a: PanelEvent, b: PanelEvent, c: PanelEvent)
    ensures PanelRun(p, [a, b, c]) == PanelStep(PanelStep(PanelStep(p, a), b), c)
  {
    var p1 := PanelStep(p, a);
    var p2 := PanelStep(p1, b);
    var p3 := PanelStep(p2, c);
    assert [c][1..] == [];
    assert PanelRun(p2, [c]) == PanelRun(p3, []) == p3;
    assert [b, c][1..] == [c];
    assert PanelRun(p1, [b, c]) == PanelRun(p2, [c]);
    assert [a, b, c][1..] == [b, c];
  }

  lemma RunFour(p: Panel, a: PanelEvent, b: PanelEvent, c: PanelEvent, d: PanelEvent)
    ensures PanelRun(p, [a, b, c, d]) == PanelStep(PanelStep(PanelStep(PanelStep(p, a), b), c), d)
  {
    assert [a, b, c, d][1..] == [b, c, d];
    RunThree(PanelStep(p, a), b, c, d);
  }

  /** Two presses of Enter, then two replies. */
  lemma TwoSends(v: ChatView, o1: Outcome, o2: Outcome)
    requires CanSend(v)
    ensures Arrive(Arrive(Press(Press(Panel(v, 0), "Enter", false), "Enter", false), o1), o2).view.transcript
            == v.transcript + [UserLine(v), UserLine(v), ResponseLine(o1), ResponseLine(o2)]
  {
    var t, u := v.transcript, UserLine(v);
    var p2 := Press(Press(Panel(v, 0), "Enter", false), "Enter", false);
    TwoPresses(v);
    var r1, r2 := ResponseLine(o1), ResponseLine(o2);
    var p3 := Arrive(p2, o1);
    assert p3.view.transcript == t + [u, u] + [r1] && p3.pending == 1;
    assert Arrive(p3, o2).view.transcript == t + [u, u] + [r1] + [r2];
    assert t + [u, u] + [r1] + [r2] == t + [u, u, r1, r2];
  }

  /** Two presses of Enter, with no reply in between, show the user line
      twice and leave two requests in flight. */
  lemma TwoPresses(v: ChatView)
    requires CanSend(v)
    ensures var p := Press(Press(Panel(v, 0), "Enter", false), "Enter", false);
            p.view.transcript == v.transcript + [UserLine(v), UserLine(v)] && p.pending == 2
  {
    var t, u := v.transcript, UserLine(v);
    var p1 := Press(Panel(v, 0), "Enter", false);
    assert p1.view.transcript == t + [u] && p1.pending == 1;
    assert CanSend(p1.view) && UserLine(p1.view) == u;
    assert Press(p1, "Enter", false).view.transcript == t + [u] + [u];
    assert t + [u] + [u] == t + [u, u];
  }

  /** Two user lines in a row break the alternation. */
  lemma UserLineTwice(t: seq<string>, u: string, a: string, b: string)
    requires IsUserLine(u)
    ensures !WellFormedTranscript(t + [u, u, a, b])
  {
    var r := t + [u, u, a, b];
    UserLineIsNoReply(u);
    if |t| % 2 == 0 {
      assert r[|t| + 1] == u;
      assert (|t| + 1) % 2 == 1;
    } else {
      assert |r| % 2 == 1;
    }
  }

  /** Text typed while a request is in flight is lost when the request
      settles, and the loading flag goes off while a second request is
      still pending. */
  lemma SettlingDiscardsEdits(v: ChatView, text: string, o: Outcome)
    requires CanSend(v)
    ensures var r := PanelRun(Panel(v, 0), [Pressed("Enter", false), Edited(text), Settled(o)]);
            r.view.query == [] && r.pending == 0
    ensures var r := PanelRun(Panel(v, 0), [Pressed("Enter", false), Pressed("Enter", false), Settled(o)]);
            !r.view.loading && r.pending == 1
  {
    var enter := Pressed("Enter", false);
    RunThree(Panel(v, 0), enter, Edited(text), Settled(o));
    RunThree(Panel(v, 0), enter, enter, Settled(o));
    assert Press(Panel(v, 0), "Enter", false).pending == 1;
  }
}

=== FILE: component_form.dfy ===
/** The name field of frontend/src/components/CustomComponentForm.js and
    what submitting it does. */
module ComponentForm {
  import opened Wrappers
  import opened Text

  /** The call `addCustomComponent(name, kind)` the form makes. */
  datatype Submitted = Submitted(name: string, kind: string)

  /** The field after a submit, and the call made, if any. */
  datatype SubmitResult = SubmitResult(field: string, call: Option<Submitted>)

  /** `handleSubmit`: a name that is blank after trimming is ignored;
      otherwise the untrimmed name is passed on with kind 'default' and the
      field is cleared. */
  function Submit(field: string): (r: SubmitResult)
    ensures r.call.None? <==> AllIn(field, IsJsSpace)
    ensures r.call.None? ==> r.field == field
    ensures r.call.Some? ==> r.field == [] && r.call.value == Submitted(field, "default")
  {
    if JsTrim(field) == [] then SubmitResult(field, None)
    else SubmitResult("", Some(Submitted(field, "default")))
  }

  /** What the user does with the form: type into the field (the input's
      `onChange` sets the field to the input's new value) or press Add. */
  datatype FormEvent = Typed(text: string) | Pressed

  /** The field's contents and every call made so far, oldest first. */
  datatype FormState = FormState(field: string, calls: seq<Submitted>)

  /** A call the form can make: a name that is not blank after trimming,
      with kind 'default'. */
  predicate Acceptable(c: Submitted) {
    !AllIn(c.name, IsJsSpace) && c.kind == "default"
  }

  /** One event: typing replaces the field and makes no call; pressing Add
      runs `handleSubmit`. */
  function Step(st: FormState, e: FormEvent): (r: FormState)
    ensures st.calls <= r.calls && |r.calls| <= |st.calls| + 1
    ensures e.Typed? ==> r == FormState(e.text, st.calls)
    ensures e.Pressed? ==> r.field == Submit(st.field).field
                           && (|r.calls| == |st.calls| + 1 <==> !AllIn(st.field, IsJsSpace))
    ensures |r.calls| == |st.calls| + 1 ==>
              e.Pressed? && r.field == [] && r.calls[|st.calls|] == Submitted(st.field, "default")
              && Acceptable(r.calls[|st.calls|])
  {
    match e
    case Typed(text) => FormState(text, st.calls)
    case Pressed =>
      var sub := Submit(st.field);
      match sub.call
      case None => FormState(sub.field, st.calls)
      case Some(c) => FormState(sub.field, st.calls + [c])
  }

  /** A sequence of events, first to last. */
  function Run(st: FormState, events: seq<FormEvent>): (r: FormState)
    ensures st.calls <= r.calls
    ensures |r.calls| - |st.calls| <= |events|
    ensures forall i :: |st.calls| <= i < |r.calls| ==> Acceptable(r.calls[i])
    ensures forall i :: |st.calls| <= i < |r.calls| ==>
              r.calls[i].name == st.field || Typed(r.calls[i].name) in events
    decreases |events|
  {
    if events == [] then st
    else Run(Step(st, events[0]), events[1..])
  }

  /** Typing a name and pressing Add: a blank name leaves the typed text in
      the field and makes no call; any other name is passed on as typed and
      the field is cleared. */
  lemma TypeThenSubmit(field: string, text: string)
    ensures Run(FormState(field, []), [Typed(text), Pressed])
            == if AllIn(text, IsJsSpace) then FormState(text, [])
               else FormState("", [Submitted(text, "default")])
  {
    var events := [Typed(text), Pressed];
    var typed := FormState(text, []);
    assert events[1..] == [Pressed] && events[1..][1..] == [];
    assert Run(FormState(field, []), events) == Run(typed, [Pressed]);
    assert Run(typed, [Pressed]) == Step(typed, Pressed);
  }

  /** A second submit right after an accepted one makes no call. */
  lemma SubmitTwice(field: string)
    requires Submit(field).call.Some?
    ensures Submit(Submit(field).field) == SubmitResult("", None)
  {
  }

  /** Surrounding blanks are kept in the submitted name. */
  lemma UntrimmedName()
    ensures Submit(" Parser ").call == Some(Submitted(" Parser ", "default"))
  {
    assert !IsJsSpace(" Parser "[1]);
  }
}

=== FILE: conversation_store.dfy ===
/** The conversation table of db/local_db.py. The SQLite file is either absent
    or present holding the table's rows in insertion order; the `id` and
    `timestamp` columns are represented by that order. */
module ConversationStore {
  import opened Seqs

  datatype Row = Row(query: string, context: string, response: string, fileUploaded: bool)

  datatype Db = Absent | Present(rows: seq<Row>)

  datatype Role = User | Assistant

  /** One entry of the history handed to the agent (`{"role": …, "content": …}`). */
  datatype Turn = Turn(role: Role, content: string)

  /** `init_db`: whatever was there before, the database now holds an empty
      conversation table. */
  function InitDb(db: Db): (r: Db)
    ensures r.Present? && r.rows == []
  {
    Present([])
  }

  /** `store_conversation`: one row appended at the end. The table must exist
      (the program creates it at start-up; without it the INSERT raises). */
  function Store(db: Db, query: string, context: string, response: string, fileUploaded: bool): (r: Db)
    requires db.Present?
    ensures r.Present? && |r.rows| == |db.rows| + 1
    ensures r.rows[..|db.rows|] == db.rows
    ensures r.rows[|db.rows|] == Row(query, context, response, fileUploaded)
  {
    Present(db.rows + [Row(query, context, response, fileUploaded)])
  }

  /** The rows with `file_uploaded` false, in insertion order. */
  function ChatRows(rows: seq<Row>): (r: seq<Row>)
    ensures |r| <= |rows|
    ensures forall i :: 0 <= i < |r| ==> !r[i].fileUploaded
    ensures forall row :: row in r <==> row in rows && !row.fileUploaded
  {
    if |rows| == 0 then []
    else (if rows[0].fileUploaded then [] else [rows[0]]) + ChatRows(rows[1..])
  }

  /** The rows with `file_uploaded` true, in insertion order. */
  function UploadRows(rows: seq<Row>): (r: seq<Row>)
    ensures |r| <= |rows|
    ensures forall i :: 0 <= i < |r| ==> r[i].fileUploaded
    ensures forall row :: row in r <==> row in rows && row.fileUploaded
  {
    if |rows| == 0 then []
    else (if rows[0].fileUploaded then [rows[0]] else []) + UploadRows(rows[1..])
  }

  predicate IsChat(row: Row) {
    !row.fileUploaded
  }

  predicate IsUpload(row: Row) {
    row.fileUploaded
  }

  /** The chat rows are the rows filtered on `NOT file_uploaded`: kept in
      their order, each as often as it was stored. */
  lemma {:induction false} ChatRowsInOrder(rows: seq<Row>)
    ensures ChatRows(rows) == Filter(rows, IsChat)
    ensures IsSubsequence(ChatRows(rows), rows)
    ensures forall row :: multiset(ChatRows(rows))[row] == if row.fileUploaded then 0 else multiset(rows)[row]
  {
    if |rows| > 0 {
      ChatRowsInOrder(rows[1..]);
    }
  }

  /** The upload rows are the rows filtered on `file_uploaded`: kept in their
      order, each as often as it was stored. */
  lemma {:induction false} UploadRowsInOrder(rows: seq<Row>)
    ensures UploadRows(rows) == Filter(rows, IsUpload)
    ensures IsSubsequence(UploadRows(rows), rows)
    ensures forall row :: multiset(UploadRows(rows))[row] == if row.fileUploaded then multiset(rows)[row] else 0
  {
    if |rows| > 0 {
      UploadRowsInOrder(rows[1..]);
    }
  }

  /** Every row is either a chat row or an upload row. */
  lemma {:induction false} RowsPartition(rows: seq<Row>)
    ensures |ChatRows(rows)| + |UploadRows(rows)| == |rows|
  {
    if |rows| > 0 {
      RowsPartition(rows[1..]);
    }
  }

  /** A stored row joins the chat rows at the end, if it is one. */
  lemma {:induction false} ChatRowsAppend(rows: seq<Row>, row: Row)
    ensures ChatRows(rows + [row]) == ChatRows(rows) + (if row.fileUploaded then [] else [row])
  {
    var t := rows + [row];
    var last: seq<Row> := if row.fileUploaded then [] else [row];
    if |rows| == 0 {
      assert t == [row] && t[1..] == [];
    } else {
      var tail := rows[1..];
      var head: seq<Row> := if rows[0].fileUploaded then [] else [rows[0]];
      assert ChatRows(t) == head + ChatRows(tail + [row]) by {
        assert t[0] == rows[0] && t[1..] == tail + [row];
      }
      ChatRowsAppend(tail, row);
      ConcatAssoc(head, ChatRows(tail), last);
    }
  }

  /** A stored row joins the upload rows at the end, if it is one. */
  lemma {:induction false} UploadRowsAppend(rows: seq<Row>, row: Row)
    ensures UploadRows(rows + [row]) == UploadRows(rows) + (if row.fileUploaded then [row] else [])
  {
    var t := rows + [row];
    var last: seq<Row> := if row.fileUploaded then [row] else [];
    if |rows| == 0 {
      assert t == [row] && t[1..] == [];
    } else {
      var tail := rows[1..];
      var head: seq<Row> := if rows[0].fileUploaded then [rows[0]] else [];
      assert UploadRows(t) == head + UploadRows(tail + [row]) by {
        assert t[0] == rows[0] && t[1..] == tail + [row];
      }
      UploadRowsAppend(tail, row);
      ConcatAssoc(head, UploadRows(tail), last);
    }
  }

  /** `clear_conversations`: `DELETE … WHERE NOT file_uploaded`, or nothing when
      the database file does not exist. */
  function Clear(db: Db): (r: Db)
    ensures db.Absent? ==> r == db
    ensures db.Present? ==> r.Present? && r.rows == UploadRows(db.rows)
    ensures db.Present? ==> |r.rows| == |db.rows| - |ChatRows(db.rows)|
  {
    match db
    case Absent => Absent
    case Present(rows) =>
      RowsPartition(rows);
      Present(UploadRows(rows))
  }

  /** Clearing twice is the same as clearing once. */
  lemma {:induction false} ClearIdempotent(db: Db)
    ensures Clear(Clear(db)) == Clear(db)
  {
    if db.Present? {
      UploadRowsFixed(UploadRows(db.rows));
    }
  }

  /** After a clear the history is empty, whatever the limit. */
  lemma ClearForgetsHistory(db: Db, limit: int)
    requires db.Present?
    ensures Recent(Clear(db), limit) == []
  {
    NoChatRows(UploadRows(db.rows));
    RecentIsLatestChats(UploadRows(db.rows), limit);
  }

  lemma {:induction false} NoChatRows(rows: seq<Row>)
    requires forall i :: 0 <= i < |rows| ==> rows[i].fileUploaded
    ensures ChatRows(rows) == []
  {
    if |rows| > 0 {
      NoChatRows(rows[1..]);
    }
  }

  lemma {:induction false} UploadRowsFixed(rows: seq<Row>)
    requires forall i :: 0 <= i < |rows| ==> rows[i].fileUploaded
    ensures UploadRows(rows) == rows
  {
    if |rows| > 0 {
      UploadRowsFixed(rows[1..]);
      assert rows == [rows[0]] + rows[1..];
    }
  }

  /** The elements of `xs`, last first. */
  function Reverse<T>(xs: seq<T>): (r: seq<T>)
    ensures |r| == |xs|
    ensures forall i :: 0 <= i < |xs| ==> r[i] == xs[|xs| - 1 - i]
  {
    seq(|xs|, i requires 0 <= i < |xs| => xs[|xs| - 1 - i])
  }

  lemma ReverseReverse<T>(xs: seq<T>)
    ensures Reverse(Reverse(xs)) == xs
  {
    assert forall i :: 0 <= i < |xs| ==> Reverse(Reverse(xs))[i] == xs[i];
  }

  /** How many rows `LIMIT limit` lets through out of `n`: SQLite treats a
      negative limit as no limit. */
  function LimitCount(n: nat, limit: int): (k: nat)
    ensures k <= n
    ensures limit >= 0 ==> k <= limit
    ensures k == n || k == limit
  {
    if limit < 0 || limit >= n then n else limit
  }

  /** The last `k` elements of `xs`, last first. */
  function NewestFirst<T>(xs: seq<T>, k: nat): (r: seq<T>)
    requires k <= |xs|
    ensures |r| == k
    ensures forall i :: 0 <= i < k ==> r[i] == xs[|xs| - 1 - i]
  {
    Reverse(xs[|xs| - k..])
  }

  /** Reversing the newest-first selection gives back the tail in order. */
  lemma ReverseNewestFirst<T>(xs: seq<T>, k: nat)
    requires k <= |xs|
    ensures Reverse(NewestFirst(xs, k)) == xs[|xs| - k..]
  {
    ReverseReverse(xs[|xs| - k..]);
  }

  /** The `SELECT query, response … WHERE NOT file_uploaded ORDER BY timestamp
      DESC LIMIT ?` result: the latest chat rows, newest first. */
  function FetchLatest(rows: seq<Row>, limit: int): (r: seq<Row>)
    ensures var chats := ChatRows(rows);
            && |r| == LimitCount(|chats|, limit)
            && forall i :: 0 <= i < |r| ==> r[i] == chats[|chats| - 1 - i]
  {
    var chats := ChatRows(rows);
    NewestFirst(chats, LimitCount(|chats|, limit))
  }

  /** Each fetched row as a user turn followed by an assistant turn. */
  function Turns(rows: seq<Row>): (ts: seq<Turn>)
    ensures |ts| == 2 * |rows|
    ensures forall i :: 0 <= i < |ts| ==>
              ts[i] == if i % 2 == 0 then Turn(User, rows[i / 2].query)
                       else Turn(Assistant, rows[i / 2].response)
  {
    if |rows| == 0 then []
    else
      var rest := Turns(rows[1..]);
      var ts := [Turn(User, rows[0].query), Turn(Assistant, rows[0].response)] + rest;
      assert forall i :: 2 <= i < |ts| ==> ts[i] == rest[i - 2] && (i - 2) / 2 == i / 2 - 1 && (i - 2) % 2 == i % 2;
      ts
  }

  /** `get_recent_conversations`: the fetched rows put back in oldest-first
      order and expanded into alternating user/assistant turns; `[]` when the
      database file does not exist. */
  function Recent(db: Db, limit: int): (ts: seq<Turn>)
    ensures db.Absent? ==> ts == []
    ensures |ts| % 2 == 0
    ensures limit >= 0 ==> |ts| <= 2 * limit
    ensures forall i :: 0 <= i < |ts| ==> (ts[i].role == User <==> i % 2 == 0)
  {
    match db
    case Absent => []
    case Present(rows) => Turns(Reverse(FetchLatest(rows, limit)))
  }

  /** The history is the last `limit` chat rows (all of them for a negative
      limit) in insertion order, uploads excluded. */
  lemma RecentIsLatestChats(rows: seq<Row>, limit: int)
    ensures var chats := ChatRows(rows);
            var k := LimitCount(|chats|, limit);
            Recent(Present(rows), limit) == Turns(chats[|chats| - k..])
  {
    var chats := ChatRows(rows);
    var k := LimitCount(|chats|, limit);
    var f := FetchLatest(rows, limit);
    assert f == NewestFirst(chats, k);
    ReverseNewestFirst(chats, k);
    assert Recent(Present(rows), limit) == Turns(Reverse(f));
  }

  /** After an exchange is stored, the history handed out next ends with it:
      the user's query, then the reply. */
  lemma StoreChatEndsRecent(db: Db, query: string, context: string, response: string, limit: int)
    requires db.Present? && limit != 0
    ensures var ts := Recent(Store(db, query, context, response, false), limit);
            |ts| >= 2 && ts[|ts| - 2..] == [Turn(User, query), Turn(Assistant, response)]
  {
    var row := Row(query, context, response, false);
    var rows := db.rows + [row];
    ChatRowsAppend(db.rows, row);
    RecentIsLatestChats(rows, limit);
    LatestEndsWith(ChatRows(rows), row, limit);
  }

  /** The turns of a non-empty tail end with the last row's two turns. */
  lemma LatestEndsWith(chats: seq<Row>, row: Row, limit: int)
    requires |chats| >= 1 && chats[|chats| - 1] == row && limit != 0
    ensures var ts := Turns(chats[|chats| - LimitCount(|chats|, limit)..]);
            |ts| >= 2 && ts[|ts| - 2..] == [Turn(User, row.query), Turn(Assistant, row.response)]
  {
    var latest := chats[|chats| - LimitCount(|chats|, limit)..];
    assert |latest| >= 1 && latest[|latest| - 1] == row;
    TurnsEnd(latest);
  }

  lemma TurnsEnd(rows: seq<Row>)
    requires |rows| >= 1
    ensures var ts := Turns(rows);
            var last := rows[|rows| - 1];
            |ts| >= 2 && ts[|ts| - 2..] == [Turn(User, last.query), Turn(Assistant, last.response)]
  {
    var ts := Turns(rows);
    var n := |rows|;
    assert |ts| == 2 * n;
    assert (2 * n - 2) / 2 == n - 1 && (2 * n - 2) % 2 == 0;
    assert (2 * n - 1) / 2 == n - 1 && (2 * n - 1) % 2 == 1;
    assert ts[2 * n - 2] == Turn(User, rows[n - 1].query);
    assert ts[2 * n - 1] == Turn(Assistant, rows[n - 1].response);
  }

  /** Storing an upload row leaves the history handed out unchanged. */
  lemma StoreUploadKeepsRecent(db: Db, query: string, context: string, response: string, limit: int)
    requires db.Present?
    ensures Recent(Store(db, query, context, response, true), limit) == Recent(db, limit)
  {
    ChatRowsAppend(db.rows, Row(query, context, response, true));
    SameChatsSameRecent(db.rows + [Row(query, context, response, true)], db.rows, limit);
  }

  /** The history depends on the chat rows alone. */
  lemma SameChatsSameRecent(a: seq<Row>, b: seq<Row>, limit: int)
    requires ChatRows(a) == ChatRows(b)
    ensures Recent(Present(a), limit) == Recent(Present(b), limit)
  {
    assert FetchLatest(a, limit) == FetchLatest(b, limit);
  }

  /** A clear undoes the storing of an exchange. */
  lemma ClearUndoesStoreChat(db: Db, query: string, context: string, response: string)
    requires db.Present?
    ensures Clear(Store(db, query, context, response, false)) == Clear(db)
  {
    UploadRowsAppend(db.rows, Row(query, context, response, false));
  }
}

=== FILE: diagram.dfy ===
/** The graph the workflow canvas renders (frontend/src/App.js and
    frontend/src/components/WorkflowCanvas.js): nodes and edges as ReactFlow
    receives them, the pre-authored agent diagram, and the well-formedness
    conditions a diagram may or may not meet. */
module Diagram {
  import opened Wrappers
  import opened Text
  import opened Seqs

  /** A canvas position. The browser's floating-point coordinates are
      represented by integers. */
  datatype Point = Point(x: int, y: int)

  /** ReactFlow's `type` field of a node. */
  datatype NodeType = DefaultType | CustomType | IoType

  datatype Node = Node(id: string, kind: NodeType, position: Point, caption: string)

  /** An edge; `pathType` is ReactFlow's optional `type` (e.g. 'smoothstep'). */
  datatype Edge = Edge(id: string, source: string, target: string,
                       caption: Option<string>, animated: bool, pathType: Option<string>)

  function NodeIds(nodes: seq<Node>): set<string> {
    set n | n in nodes :: n.id
  }

  function EdgeIds(edges: seq<Edge>): set<string> {
    set e | e in edges :: e.id
  }

  predicate DistinctNodeIds(nodes: seq<Node>) {
    forall i, j :: 0 <= i < j < |nodes| ==> nodes[i].id != nodes[j].id
  }

  predicate DistinctEdgeIds(edges: seq<Edge>) {
    forall i, j :: 0 <= i < j < |edges| ==> edges[i].id != edges[j].id
  }

  /** Every edge's endpoints name nodes of the diagram. */
  predicate EdgesResolve(nodes: seq<Node>, edges: seq<Edge>) {
    forall e :: e in edges ==> e.source in NodeIds(nodes) && e.target in NodeIds(nodes)
  }

  /** Unique ids and no dangling edge. */
  predicate WellFormed(nodes: seq<Node>, edges: seq<Edge>) {
    DistinctNodeIds(nodes) && DistinctEdgeIds(edges) && EdgesResolve(nodes, edges)
  }

  /** `initialNodesData`: the agent loop diagram. */
  const InitialNodes: seq<Node> := [
    Node("1", CustomType, Point(160, 100), "llm (Agent Brain)"),
    Node("2", CustomType, Point(160, 250), "take_action (Tool Executor)"),
    Node("3", IoType, Point(0, 175), "User Input"),
    Node("4", IoType, Point(340, 175), "Final Answer")
  ]

  /** `initialEdgesData`. */
  const InitialEdges: seq<Edge> := [
    Edge("e3-1", "3", "1", None, true, None),
    Edge("e1-2", "1", "2", Some("Tool needed"), false, None),
    Edge("e1-4", "1", "4", Some("No tool needed"), false, None),
    Edge("e2-1", "2", "1", None, true, Some("smoothstep"))
  ]

  /** The pre-authored diagram has four nodes with ids '1'–'4', four edges
      with distinct ids, and every edge joins two of its nodes. */
  lemma InitialDiagramWellFormed()
    ensures |InitialNodes| == 4 && |InitialEdges| == 4
    ensures NodeIds(InitialNodes) == {"1", "2", "3", "4"}
    ensures WellFormed(InitialNodes, InitialEdges)
  {
    InitialNodeIds();
    InitialIdsDistinct();
    forall e | e in InitialEdges
      ensures e.source in NodeIds(InitialNodes) && e.target in NodeIds(InitialNodes)
    {
      assert e == InitialEdges[0] || e == InitialEdges[1] || e == InitialEdges[2] || e == InitialEdges[3];
    }
  }

  lemma InitialNodeIds()
    ensures NodeIds(InitialNodes) == {"1", "2", "3", "4"}
  {
    FourNodeIds(InitialNodes[0], InitialNodes[1], InitialNodes[2], InitialNodes[3]);
    assert InitialNodes == [InitialNodes[0], InitialNodes[1], InitialNodes[2], InitialNodes[3]];
  }

  lemma InitialIdsDistinct()
    ensures DistinctNodeIds(InitialNodes) && DistinctEdgeIds(InitialEdges)
  {
    assert InitialEdges[0].id == "e3-1" && InitialEdges[1].id == "e1-2";
    assert InitialEdges[2].id == "e1-4" && InitialEdges[3].id == "e2-1";
    assert "e3-1"[1] != "e1-2"[1] && "e3-1"[1] != "e1-4"[1] && "e3-1"[1] != "e2-1"[1];
    assert "e1-2"[3] != "e1-4"[3] && "e1-2"[1] != "e2-1"[1] && "e1-4"[1] != "e2-1"[1];
  }

  lemma FourNodeIds(a: Node, b: Node, c: Node, d: Node)
    ensures NodeIds([a, b, c, d]) == {a.id, b.id, c.id, d.id}
  {
    assert a in [a, b, c, d] && b in [a, b, c, d] && c in [a, b, c, d] && d in [a, b, c, d];
  }

  /** The filter test of the Delete handler: the node is not selected. */
  function NodeNotIn(ids: set<string>): Node -> bool {
    (n: Node) => n.id !in ids
  }

  function EdgeNotIn(ids: set<string>): Edge -> bool {
    (e: Edge) => e.id !in ids
  }

  /** `nds.filter(n => !ids.some(s => s.id === n.id))`: the nodes whose id is
      not in `ids`, in their order. */
  function RemoveNodes(nodes: seq<Node>, ids: set<string>): (r: seq<Node>)
    ensures IsSubsequence(r, nodes)
    ensures forall n :: multiset(r)[n] == if n.id in ids then 0 else multiset(nodes)[n]
    ensures forall n :: n in r <==> n in nodes && n.id !in ids
    ensures NodeIds(r) == NodeIds(nodes) - ids
  {
    Filter(nodes, NodeNotIn(ids))
  }

  /** The edges whose id is not in `ids`, in their order. */
  function RemoveEdges(edges: seq<Edge>, ids: set<string>): (r: seq<Edge>)
    ensures IsSubsequence(r, edges)
    ensures forall e :: multiset(r)[e] == if e.id in ids then 0 else multiset(edges)[e]
    ensures forall e :: e in r <==> e in edges && e.id !in ids
    ensures EdgeIds(r) == EdgeIds(edges) - ids
  {
    Filter(edges, EdgeNotIn(ids))
  }

  /** Removing nothing keeps the list as it is. */
  lemma RemoveNoNodes(nodes: seq<Node>)
    ensures RemoveNodes(nodes, {}) == nodes
  {
    FilterAll(nodes, NodeNotIn({}));
  }

  lemma RemoveNoEdges(edges: seq<Edge>)
    ensures RemoveEdges(edges, {}) == edges
  {
    FilterAll(edges, EdgeNotIn({}));
  }

  /** Dropping elements keeps ids distinct. */
  lemma {:induction false} SubsequenceKeepsDistinctNodes(a: seq<Node>, b: seq<Node>)
    requires IsSubsequence(a, b) && DistinctNodeIds(b)
    ensures DistinctNodeIds(a)
    decreases |b|
  {
    if a != [] {
      if a[0] == b[0] && IsSubsequence(a[1..], b[1..]) {
        SubsequenceKeepsDistinctNodes(a[1..], b[1..]);
        SubsequenceMembers(a[1..], b[1..]);
        forall j | 0 < j < |a| ensures a[0].id != a[j].id {
          assert a[j] == a[1..][j - 1];
          assert a[j] in a[1..];
          assert a[j] in b[1..];
          var k :| 0 <= k < |b[1..]| && b[1..][k] == a[j];
          assert b[k + 1] == a[j];
        }
      } else {
        SubsequenceKeepsDistinctNodes(a, b[1..]);
      }
    }
  }

  lemma {:induction false} SubsequenceKeepsDistinctEdges(a: seq<Edge>, b: seq<Edge>)
    requires IsSubsequence(a, b) && DistinctEdgeIds(b)
    ensures DistinctEdgeIds(a)
    decreases |b|
  {
    if a != [] {
      if a[0] == b[0] && IsSubsequence(a[1..], b[1..]) {
        SubsequenceKeepsDistinctEdges(a[1..], b[1..]);
        SubsequenceMembers(a[1..], b[1..]);
        forall j | 0 < j < |a| ensures a[0].id != a[j].id {
          assert a[j] == a[1..][j - 1];
          assert a[j] in a[1..];
          assert a[j] in b[1..];
          var k :| 0 <= k < |b[1..]| && b[1..][k] == a[j];
          assert b[k + 1] == a[j];
        }
      } else {
        SubsequenceKeepsDistinctEdges(a, b[1..]);
      }
    }
  }

  lemma {:induction false} SubsequenceMembers<T>(a: seq<T>, b: seq<T>)
    requires IsSubsequence(a, b)
    ensures forall x :: x in a ==> x in b
    decreases |b|
  {
    if a != [] {
      if a[0] == b[0] && IsSubsequence(a[1..], b[1..]) {
        SubsequenceMembers(a[1..], b[1..]);
        assert a == [a[0]] + a[1..];
      } else {
        SubsequenceMembers(a, b[1..]);
      }
    }
  }
}

=== FILE: editor.dfy ===
/** The mode-gated diagram editor: App's state (`nodes`, `edges`,
    `customMode`), the canvas's tracked selection, and one pure transition per
    event handler of frontend/src/components/WorkflowCanvas.js and
    frontend/src/App.js. ReactFlow's own functions (`project`,
    `applyNodeChanges`, `applyEdgeChanges`, `addEdge`) are passed in as
    parameters, and the clock reading `+new Date()` is the parameter `now`. */
module Editor {
  import opened Wrappers
  import opened Text
  import opened Seqs
  import opened Diagram

  /** `customMode` false is the pre-authored agent diagram, true is Custom Mode. */
  datatype Mode = Fixed | Custom

  /** The selection ReactFlow last reported through `onSelectionChange`. */
  datatype Selection = Selection(nodes: seq<Node>, edges: seq<Edge>)

  /** The editor: mode, the rendered graph, the tracked selection, and whether
      ReactFlow's `onInit` has delivered its instance yet. */
  datatype EditorState = EditorState(mode: Mode, nodes: seq<Node>, edges: seq<Edge>,
                                     selection: Selection, flowReady: bool)

  /** The state on page load. */
  const Initial: EditorState :=
    EditorState(Fixed, InitialNodes, InitialEdges, Selection([], []), false)

  /** The id given to a node created at clock reading `now` (milliseconds). */
  function NodeIdAt(now: nat): string {
    "node_" + NatToString(now)
  }

  /** Two clock readings give the same node id exactly when they are equal. */
  lemma NodeIdAtInjective(a: nat, b: nat)
    ensures NodeIdAt(a) == NodeIdAt(b) <==> a == b
  {
    if a != b {
      PrefixedNumbersDistinct("node_", a, b);
    }
  }

  /** `toggleCustomMode`: flips the mode; entering Custom Mode empties the
      canvas and leaving it puts back the pre-authored diagram. */
  function Toggle(s: EditorState): (r: EditorState)
    ensures r.mode != s.mode
    ensures s.mode == Fixed ==> r.nodes == [] && r.edges == []
    ensures s.mode == Custom ==> r.nodes == InitialNodes && r.edges == InitialEdges
    ensures WellFormed(r.nodes, r.edges)
    ensures r.selection == s.selection && r.flowReady == s.flowReady
  {
    InitialDiagramWellFormed();
    match s.mode
    case Fixed => s.(mode := Custom, nodes := [], edges := [])
    case Custom => s.(mode := Fixed, nodes := InitialNodes, edges := InitialEdges)
  }

  /** ReactFlow's `onInit`: the instance becomes available for projection. */
  function FlowInit(s: EditorState): (r: EditorState)
    ensures r.flowReady
    ensures r.mode == s.mode && r.nodes == s.nodes && r.edges == s.edges && r.selection == s.selection
  {
    s.(flowReady := true)
  }

  /** The `addComponent` callback: appends a 'custom' node at (250, 250) in
      either mode. */
  function AddComponent(s: EditorState, caption: string, now: nat): (r: EditorState)
    ensures |r.nodes| == |s.nodes| + 1 && r.nodes[..|s.nodes|] == s.nodes
    ensures r.nodes[|s.nodes|] == Node(NodeIdAt(now), CustomType, Point(250, 250), caption)
    ensures r.edges == s.edges && r.mode == s.mode && r.selection == s.selection
    ensures r.flowReady == s.flowReady
  {
    s.(nodes := s.nodes + [Node(NodeIdAt(now), CustomType, Point(250, 250), caption)])
  }

  /** `onDrop`: in Custom Mode, once ReactFlow is initialised and the drag
      carried a non-empty label, appends a 'default' node at the projected
      drop point. `payload` is `getData` (empty when absent), `client` the mouse
      position, `bounds` the drop target's top-left corner, `project` ReactFlow's
      screen-to-canvas transform. */
  function Drop(s: EditorState, payload: string, client: Point, bounds: Point,
                project: Point -> Point, now: nat): (r: EditorState)
    ensures s.mode == Fixed || !s.flowReady || payload == [] ==> r == s
    ensures s.mode == Custom && s.flowReady && payload != [] ==>
              && |r.nodes| == |s.nodes| + 1
              && r.nodes[..|s.nodes|] == s.nodes
              && r.nodes[|s.nodes|].id == NodeIdAt(now)
              && r.nodes[|s.nodes|].kind == DefaultType
              && r.nodes[|s.nodes|].caption == payload
              && r.nodes[|s.nodes|].position == project(Point(client.x - bounds.x, client.y - bounds.y))
    ensures r.edges == s.edges && r.mode == s.mode && r.selection == s.selection
    ensures r.flowReady == s.flowReady
  {
    if s.mode == Fixed then s
    else if !s.flowReady then s
    else if payload == [] then s
    else
      var position := project(Point(client.x - bounds.x, client.y - bounds.y));
      s.(nodes := s.nodes + [Node(NodeIdAt(now), DefaultType, position, payload)])
  }

  /** `handleNodesChange`: in Custom Mode the nodes become ReactFlow's
      `applyNodeChanges(changes, nodes)`, given here as `apply`. */
  function NodesChange(s: EditorState, apply: seq<Node> -> seq<Node>): (r: EditorState)
    ensures s.mode == Fixed ==> r == s
    ensures s.mode == Custom ==> r.nodes == apply(s.nodes)
    ensures r.edges == s.edges && r.mode == s.mode && r.selection == s.selection
    ensures r.flowReady == s.flowReady
  {
    if s.mode == Fixed then s else s.(nodes := apply(s.nodes))
  }

  /** `handleEdgesChange`: in Custom Mode the edges become ReactFlow's
      `applyEdgeChanges(changes, edges)`. */
  function EdgesChange(s: EditorState, apply: seq<Edge> -> seq<Edge>): (r: EditorState)
    ensures s.mode == Fixed ==> r == s
    ensures s.mode == Custom ==> r.edges == apply(s.edges)
    ensures r.nodes == s.nodes && r.mode == s.mode && r.selection == s.selection
    ensures r.flowReady == s.flowReady
  {
    if s.mode == Fixed then s else s.(edges := apply(s.edges))
  }

  /** `handleConnect`: in Custom Mode the edges become ReactFlow's
      `addEdge(connection, edges)`. */
  function Connect(s: EditorState, addEdge: seq<Edge> -> seq<Edge>): (r: EditorState)
    ensures s.mode == Fixed ==> r == s
    ensures s.mode == Custom ==> r.edges == addEdge(s.edges)
    ensures r.nodes == s.nodes && r.mode == s.mode && r.selection == s.selection
    ensures r.flowReady == s.flowReady
  {
    if s.mode == Fixed then s else s.(edges := addEdge(s.edges))
  }

  /** The node `n` moved to 50 units right of and below `clicked`'s position
      if it has `clicked`'s id. */
  function Nudge(n: Node, clicked: Node): Node {
    if n.id == clicked.id
    then n.(position := Point(clicked.position.x + 50, clicked.position.y + 50))
    else n
  }

  /** `onNodeDoubleClick`: in Custom Mode every node carrying the clicked
      node's id is placed at the clicked node's position plus (50, 50); all
      other nodes keep their place. */
  function DoubleClick(s: EditorState, clicked: Node): (r: EditorState)
    ensures s.mode == Fixed ==> r == s
    ensures |r.nodes| == |s.nodes|
    ensures s.mode == Custom ==> forall i :: 0 <= i < |s.nodes| ==>
              && r.nodes[i].id == s.nodes[i].id
              && r.nodes[i].kind == s.nodes[i].kind
              && r.nodes[i].caption == s.nodes[i].caption
              && (s.nodes[i].id == clicked.id ==>
                    r.nodes[i].position == Point(clicked.position.x + 50, clicked.position.y + 50))
              && (s.nodes[i].id != clicked.id ==> r.nodes[i] == s.nodes[i])
    ensures NodeIds(r.nodes) == NodeIds(s.nodes)
    ensures r.edges == s.edges && r.mode == s.mode && r.selection == s.selection
    ensures r.flowReady == s.flowReady
  {
    if s.mode == Fixed then s
    else
      var nodes := seq(|s.nodes|, i requires 0 <= i < |s.nodes| => Nudge(s.nodes[i], clicked));
      assert NodeIds(nodes) == NodeIds(s.nodes) by {
        forall id | id in NodeIds(s.nodes) ensures id in NodeIds(nodes) {
          var i :| 0 <= i < |s.nodes| && s.nodes[i].id == id;
          assert nodes[i].id == id;
        }
        forall id | id in NodeIds(nodes) ensures id in NodeIds(s.nodes) {
          var i :| 0 <= i < |nodes| && nodes[i].id == id;
          assert s.nodes[i].id == id;
        }
      }
      s.(nodes := nodes)
  }

  /** `onSelectionChange`: the reported selection replaces the tracked one,
      in either mode. */
  function SelectionChange(s: EditorState, selection: Selection): (r: EditorState)
    ensures r.selection == selection
    ensures r.nodes == s.nodes && r.edges == s.edges && r.mode == s.mode
    ensures r.flowReady == s.flowReady
  {
    s.(selection := selection)
  }

  /** The `keydown` listener: in Custom Mode the 'Delete' key removes the
      selected nodes and the selected edges, matched by id. Edges that touch a
      removed node but were not selected themselves stay. */
  function KeyDown(s: EditorState, key: string): (r: EditorState)
    ensures s.mode == Fixed || key != "Delete" ==> r == s
    ensures s.mode == Custom && key == "Delete" ==>
              && IsSubsequence(r.nodes, s.nodes)
              && (forall n :: n in r.nodes <==> n in s.nodes && n.id !in NodeIds(s.selection.nodes))
              && (forall n :: multiset(r.nodes)[n] ==
                               if n.id in NodeIds(s.selection.nodes) then 0 else multiset(s.nodes)[n])
              && NodeIds(r.nodes) == NodeIds(s.nodes) - NodeIds(s.selection.nodes)
              && IsSubsequence(r.edges, s.edges)
              && (forall e :: e in r.edges <==> e in s.edges && e.id !in EdgeIds(s.selection.edges))
              && (forall e :: multiset(r.edges)[e] ==
                               if e.id in EdgeIds(s.selection.edges) then 0 else multiset(s.edges)[e])
              && EdgeIds(r.edges) == EdgeIds(s.edges) - EdgeIds(s.selection.edges)
    ensures s.selection.nodes == [] ==> r.nodes == s.nodes
    ensures s.selection.edges == [] ==> r.edges == s.edges
    ensures r.mode == s.mode && r.selection == s.selection && r.flowReady == s.flowReady
  {
    if s.mode == Fixed then s
    else if key != "Delete" then s
    else
      var selectedNodes := NodeIds(s.selection.nodes);
      var selectedEdges := EdgeIds(s.selection.edges);
      var nodes := if |s.selection.nodes| > 0 then RemoveNodes(s.nodes, selectedNodes) else s.nodes;
      var edges := if |s.selection.edges| > 0 then RemoveEdges(s.edges, selectedEdges) else s.edges;
      RemoveNoNodes(s.nodes);
      RemoveNoEdges(s.edges);
      assert |s.selection.nodes| == 0 ==> selectedNodes == {};
      assert |s.selection.edges| == 0 ==> selectedEdges == {};
      s.(nodes := nodes, edges := edges)
  }

  /** The user and ReactFlow events the editor reacts to. The ReactFlow
      library calls travel inside the event, already applied to their
      change list or connection. */
  datatype Event =
    | Toggled
    | Initialized
    | Dropped(payload: string, client: Point, bounds: Point, project: Point -> Point, now: nat)
    | NodesChanged(applyNodeChanges: seq<Node> -> seq<Node>)
    | EdgesChanged(applyEdgeChanges: seq<Edge> -> seq<Edge>)
    | Connected(addEdge: seq<Edge> -> seq<Edge>)
    | DoubleClicked(node: Node)
    | SelectionChanged(selection: Selection)
    | KeyPressed(key: string)
    | ComponentAdded(caption: string, now: nat)

  function Step(s: EditorState, e: Event): (r: EditorState)
    ensures r.mode != s.mode <==> e.Toggled?
    ensures s.mode == Fixed && !e.Toggled? ==>
              r.mode == Fixed && ((r.nodes != s.nodes || r.edges != s.edges) <==> e.ComponentAdded?)
  {
    match e
    case Toggled => Toggle(s)
    case Initialized => FlowInit(s)
    case Dropped(payload, client, bounds, project, now) => Drop(s, payload, client, bounds, project, now)
    case NodesChanged(apply) => NodesChange(s, apply)
    case EdgesChanged(apply) => EdgesChange(s, apply)
    case Connected(addEdge) => Connect(s, addEdge)
    case DoubleClicked(node) => DoubleClick(s, node)
    case SelectionChanged(selection) => SelectionChange(s, selection)
    case KeyPressed(key) => KeyDown(s, key)
    case ComponentAdded(caption, now) => AddComponent(s, caption, now)
  }

  /** The mode toggle comes an even number of times in `events`. */
  predicate EvenToggles(events: seq<Event>)
    decreases |events|
  {
    if events == [] then true
    else if events[0].Toggled? then !EvenToggles(events[1..])
    else EvenToggles(events[1..])
  }

  /** The events handled one after another, each to completion. The mode
      ends where it started exactly when the toggle came an even number of
      times. */
  function Run(s: EditorState, events: seq<Event>): (r: EditorState)
    ensures r.mode == s.mode <==> EvenToggles(events)
    decreases |events|
  {
    if events == [] then s else Run(Step(s, events[0]), events[1..])
  }

  /** A canvas event: anything except the mode toggle and the palette's
      `addComponent` callback, which App handles without a mode check. */
  predicate CanvasEvent(e: Event) {
    !e.Toggled? && !e.ComponentAdded?
  }
}

=== FILE: editor_properties.dfy ===
/** What the editor's handlers guarantee together: the read-only agent
    diagram, what toggling does to the work done in Custom Mode, when
    drops, double-clicks and deletions keep a diagram well formed, and
    concrete scenarios of the handlers at work. */
module EditorProperties {
  import opened Wrappers
  import opened Text
  import opened Seqs
  import opened Diagram
  import opened Editor

  /** Replaying two batches of events one after the other is replaying them
      as one batch: the editor keeps no state outside `EditorState`. */
  lemma {:induction false} RunConcat(s: EditorState, a: seq<Event>, b: seq<Event>)
    ensures Run(s, a + b) == Run(Run(s, a), b)
    decreases |a|
  {
    if a == [] {
      assert a + b == b;
    } else {
      assert (a + b)[0] == a[0] && (a + b)[1..] == a[1..] + b;
      RunConcat(Step(s, a[0]), a[1..], b);
    }
  }

  /** While the agent diagram is shown, no sequence of canvas events (drops,
      node and edge changes, connections, double-clicks, selections, key
      presses) changes its nodes or edges, and the mode stays fixed. */
  lemma {:induction false} FixedModeIsReadOnly(s: EditorState, events: seq<Event>)
    requires s.mode == Fixed
    requires forall i :: 0 <= i < |events| ==> CanvasEvent(events[i])
    ensures Run(s, events).mode == Fixed
    ensures Run(s, events).nodes == s.nodes && Run(s, events).edges == s.edges
    decreases |events|
  {
    if events != [] {
      var next := Step(s, events[0]);
      assert next.mode == Fixed && next.nodes == s.nodes && next.edges == s.edges;
      FixedModeIsReadOnly(next, events[1..]);
    }
  }

  /** Two toggles from page load give back the page-load state. */
  lemma ToggleTwiceFromInitial()
    ensures Toggle(Toggle(Initial)) == Initial
  {
  }

  /** Two toggles never give back Custom Mode work: coming back to Custom
      Mode shows an empty canvas, and coming back to the agent diagram shows
      the pre-authored one, whatever was on the canvas before. */
  lemma ToggleTwiceForgets(s: EditorState)
    ensures Toggle(Toggle(s)).mode == s.mode
    ensures s.mode == Custom ==> Toggle(Toggle(s)).nodes == [] && Toggle(Toggle(s)).edges == []
    ensures s.mode == Fixed ==> Toggle(Toggle(s)).nodes == InitialNodes && Toggle(Toggle(s)).edges == InitialEdges
  {
  }

  /** Entering and leaving Custom Mode discards the custom diagram: a node
      dropped in Custom Mode is gone after leaving Custom Mode and coming
      back. */
  lemma {:induction false} CustomWorkLostOnRoundTrip(project: Point -> Point, now: nat)
    ensures var s1 := Run(Initial, [Initialized, Toggled,
                                    Dropped("KnowledgeBase", Point(120, 80), Point(0, 0), project, now)]);
            && s1.mode == Custom && |s1.nodes| == 1 && s1.nodes[0].caption == "KnowledgeBase"
            && Run(s1, [Toggled, Toggled]).mode == Custom
            && Run(s1, [Toggled, Toggled]).nodes == []
  {
    var drop := Dropped("KnowledgeBase", Point(120, 80), Point(0, 0), project, now);
    var es := [Initialized, Toggled, drop];
    var s0 := FlowInit(Initial);
    var sT := Toggle(s0);
    assert sT.mode == Custom && sT.flowReady && sT.nodes == [];
    var s1 := Drop(sT, "KnowledgeBase", Point(120, 80), Point(0, 0), project, now);
    assert es[1..] == [Toggled, drop] && es[1..][1..] == [drop] && [drop][1..] == [];
    assert Run(s1, []) == s1;
    assert Run(sT, [drop]) == Run(s1, []);
    assert Run(s0, [Toggled, drop]) == Run(sT, [drop]);
    assert Run(Initial, es) == Run(s0, [Toggled, drop]);
    var s2 := Toggle(Toggle(s1));
    assert [Toggled, Toggled][1..] == [Toggled];
    assert Run(s2, []) == s2;
    assert Run(Toggle(s1), [Toggled]) == Run(s2, []);
    assert Run(s1, [Toggled, Toggled]) == s2;
  }

  /** A successful drop keeps a well-formed diagram well formed exactly when
      no node already has the id the clock reading produces. */
  lemma DropWellFormedIff(s: EditorState, payload: string, client: Point, bounds: Point,
                          project: Point -> Point, now: nat)
    requires s.mode == Custom && s.flowReady && payload != []
    requires WellFormed(s.nodes, s.edges)
    ensures var r := Drop(s, payload, client, bounds, project, now);
            WellFormed(r.nodes, r.edges) <==> NodeIdAt(now) !in NodeIds(s.nodes)
  {
    var r := Drop(s, payload, client, bounds, project, now);
    var m := |s.nodes|;
    assert forall i :: 0 <= i < m ==> r.nodes[i] == s.nodes[i];
    if NodeIdAt(now) in NodeIds(s.nodes) {
      var i :| 0 <= i < m && s.nodes[i].id == NodeIdAt(now);
      assert r.nodes[i].id == r.nodes[m].id;
    } else {
      forall i, j | 0 <= i < j < |r.nodes| ensures r.nodes[i].id != r.nodes[j].id {
        if j == m {
          assert r.nodes[i] in s.nodes;
        }
      }
      forall e | e in r.edges ensures e.source in NodeIds(r.nodes) && e.target in NodeIds(r.nodes) {
        assert NodeIds(s.nodes) <= NodeIds(r.nodes) by {
          forall id | id in NodeIds(s.nodes) ensures id in NodeIds(r.nodes) {
            var i :| 0 <= i < m && s.nodes[i].id == id;
            assert r.nodes[i].id == id;
          }
        }
      }
    }
  }

  /** The palette's `addComponent` keeps a well-formed diagram well formed
      exactly when no node already has the id the clock reading produces; it
      does so in either mode. */
  lemma AddComponentWellFormedIff(s: EditorState, caption: string, now: nat)
    requires WellFormed(s.nodes, s.edges)
    ensures var r := AddComponent(s, caption, now);
            WellFormed(r.nodes, r.edges) <==> NodeIdAt(now) !in NodeIds(s.nodes)
  {
    var r := AddComponent(s, caption, now);
    assert r.nodes == s.nodes + [r.nodes[|s.nodes|]];
    AppendNodeWellFormedIff(s.nodes, s.edges, r.nodes[|s.nodes|]);
  }

  /** Appending a node to a well-formed diagram keeps it well formed exactly
      when the node's id is new. */
  lemma AppendNodeWellFormedIff(nodes: seq<Node>, edges: seq<Edge>, n: Node)
    requires WellFormed(nodes, edges)
    ensures WellFormed(nodes + [n], edges) <==> n.id !in NodeIds(nodes)
  {
    var r := nodes + [n];
    var m := |nodes|;
    assert forall i :: 0 <= i < m ==> r[i] == nodes[i];
    if n.id in NodeIds(nodes) {
      var i :| 0 <= i < m && nodes[i].id == n.id;
      assert r[i].id == r[m].id;
    } else {
      forall i, j | 0 <= i < j < |r| ensures r[i].id != r[j].id {
        if j == m {
          assert r[i] in nodes;
        }
      }
      assert NodeIds(nodes) <= NodeIds(r) by {
        forall id | id in NodeIds(nodes) ensures id in NodeIds(r) {
          var i :| 0 <= i < m && nodes[i].id == id;
          assert r[i].id == id;
        }
      }
    }
  }

  /** Two successful drops at the same clock reading create two nodes with
      the same id, so the diagram's node ids are no longer distinct. */
  lemma {:induction false} SameTickDropsCollide(s: EditorState, a: string, b: string,
                                                clientA: Point, clientB: Point, bounds: Point,
                                                project: Point -> Point, now: nat)
    requires s.mode == Custom && s.flowReady && a != [] && b != []
    ensures var r := Drop(Drop(s, a, clientA, bounds, project, now), b, clientB, bounds, project, now);
            && |r.nodes| == |s.nodes| + 2
            && r.nodes[|s.nodes|].id == r.nodes[|s.nodes| + 1].id
            && !DistinctNodeIds(r.nodes)
  {
    var r1 := Drop(s, a, clientA, bounds, project, now);
    var r := Drop(r1, b, clientB, bounds, project, now);
    assert r.nodes[|s.nodes|] == r1.nodes[|s.nodes|];
  }

  /** Drops at different clock readings create nodes with different ids. */
  lemma {:induction false} DistinctTickDropsDiffer(s: EditorState, a: string, b: string,
                                                   clientA: Point, clientB: Point, bounds: Point,
                                                   project: Point -> Point, t1: nat, t2: nat)
    requires s.mode == Custom && s.flowReady && a != [] && b != [] && t1 != t2
    ensures var r := Drop(Drop(s, a, clientA, bounds, project, t1), b, clientB, bounds, project, t2);
            r.nodes[|s.nodes|].id != r.nodes[|s.nodes| + 1].id
  {
    var r1 := Drop(s, a, clientA, bounds, project, t1);
    var r := Drop(r1, b, clientB, bounds, project, t2);
    assert r.nodes[|s.nodes|] == r1.nodes[|s.nodes|];
    NodeIdAtInjective(t1, t2);
  }

  /** A double-click keeps a well-formed diagram well formed. */
  lemma DoubleClickKeepsWellFormed(s: EditorState, clicked: Node)
    requires WellFormed(s.nodes, s.edges)
    ensures var r := DoubleClick(s, clicked); WellFormed(r.nodes, r.edges)
  {
    var r := DoubleClick(s, clicked);
    if s.mode == Custom {
      assert forall i :: 0 <= i < |s.nodes| ==> r.nodes[i].id == s.nodes[i].id;
    }
  }

  /** Deleting keeps node and edge ids distinct. */
  lemma DeleteKeepsDistinctIds(s: EditorState, key: string)
    requires DistinctNodeIds(s.nodes) && DistinctEdgeIds(s.edges)
    ensures var r := KeyDown(s, key); DistinctNodeIds(r.nodes) && DistinctEdgeIds(r.edges)
  {
    var r := KeyDown(s, key);
    if s.mode == Custom && key == "Delete" {
      SubsequenceKeepsDistinctNodes(r.nodes, s.nodes);
      SubsequenceKeepsDistinctEdges(r.edges, s.edges);
    }
  }

  /** After a Delete in a well-formed Custom Mode diagram, every edge still
      resolves exactly when no unselected edge touches a selected node. */
  lemma DeleteResolvesIff(s: EditorState)
    requires s.mode == Custom && WellFormed(s.nodes, s.edges)
    ensures var r := KeyDown(s, "Delete");
            var gone := NodeIds(s.selection.nodes);
            EdgesResolve(r.nodes, r.edges) <==>
              forall e :: e in s.edges && e.id !in EdgeIds(s.selection.edges) ==>
                e.source !in gone && e.target !in gone
  {
    var r := KeyDown(s, "Delete");
    var gone := NodeIds(s.selection.nodes);
    var kept := EdgeIds(s.selection.edges);
    assert NodeIds(r.nodes) == NodeIds(s.nodes) - gone;
    if EdgesResolve(r.nodes, r.edges) {
      forall e | e in s.edges && e.id !in kept ensures e.source !in gone && e.target !in gone {
        assert e in r.edges;
      }
    }
  }

  /** The Delete handler does not cascade: deleting the source node of an
      edge while leaving the edge unselected leaves a dangling edge. */
  lemma DeleteLeavesDanglingEdge()
    ensures var a := Node("a", DefaultType, Point(0, 0), "A");
            var b := Node("b", DefaultType, Point(0, 0), "B");
            var e := Edge("e", "a", "b", None, false, None);
            var s := EditorState(Custom, [a, b], [e], Selection([a], []), true);
            var r := KeyDown(s, "Delete");
            && WellFormed(s.nodes, s.edges)
            && r.nodes == [b] && r.edges == [e]
            && !EdgesResolve(r.nodes, r.edges)
  {
    var a := Node("a", DefaultType, Point(0, 0), "A");
    var b := Node("b", DefaultType, Point(0, 0), "B");
    var e := Edge("e", "a", "b", None, false, None);
    TwoNodeIds(a, b);
    assert NodeIds([a]) == {"a"};
    KeepSecond(a, b, {"a"});
    assert NodeIds([b]) == {"b"};
  }

  lemma TwoNodeIds(a: Node, b: Node)
    ensures NodeIds([a, b]) == {a.id, b.id}
  {
    assert a in [a, b] && b in [a, b];
  }

  /** Removing by id from a two-node list when only the first is selected. */
  lemma KeepSecond(a: Node, b: Node, ids: set<string>)
    requires a.id in ids && b.id !in ids
    ensures RemoveNodes([a, b], ids) == [b]
  {
    assert [a, b][1..] == [b] && [b][1..] == [];
  }

  /** Scenario: dropping "KnowledgeBase" at screen point (120, 80) on a canvas
      at the page origin, with the identity projection of an unpanned,
      unzoomed viewport, creates one node at (120, 80) with that label. */
  lemma DropScenario(s: EditorState, now: nat)
    requires s.mode == Custom && s.flowReady
    ensures var r := Drop(s, "KnowledgeBase", Point(120, 80), Point(0, 0), p => p, now);
            && |r.nodes| == |s.nodes| + 1
            && r.nodes[|s.nodes|].caption == "KnowledgeBase"
            && r.nodes[|s.nodes|].position == Point(120, 80)
  {
  }

  /** Scenario: after page load, ReactFlow's `onInit` and the switch to
      Custom Mode, a node dropped at (160, 100) with an identity projection
      moves to (210, 150) when double-clicked. */
  lemma DoubleClickScenario(project: Point -> Point, now: nat)
    requires forall p :: project(p) == p
    ensures var s := Run(Initial, [Initialized, Toggled,
                                   Dropped("KnowledgeBase", Point(160, 100), Point(0, 0), project, now)]);
            && |s.nodes| == 1 && s.nodes[0].position == Point(160, 100)
            && DoubleClick(s, s.nodes[0]).nodes[0].position == Point(210, 150)
  {
    var drop := Dropped("KnowledgeBase", Point(160, 100), Point(0, 0), project, now);
    var es := [Initialized, Toggled, drop];
    var s0 := FlowInit(Initial);
    var sT := Toggle(s0);
    assert sT.mode == Custom && sT.flowReady && sT.nodes == [];
    var s1 := Drop(sT, "KnowledgeBase", Point(160, 100), Point(0, 0), project, now);
    assert es[1..] == [Toggled, drop] && es[1..][1..] == [drop] && [drop][1..] == [];
    assert Run(sT, [drop]) == Run(s1, []) == s1;
    assert Run(s0, [Toggled, drop]) == Run(sT, [drop]);
    assert Run(Initial, es) == s1;
  }

  /** Scenario: with the agent diagram shown, selecting a node and pressing
      Delete leaves four nodes and four edges. */
  lemma FixedDiagramInertScenario()
    ensures var s := SelectionChange(Initial, Selection([InitialNodes[0]], []));
            var r := KeyDown(s, "Delete");
            |r.nodes| == 4 && |r.edges| == 4
  {
    InitialDiagramWellFormed();
  }
}

=== FILE: patterns.dfy ===
/** The pieces of Python's `re` engine that the chat back end relies on, for
    the fixed patterns it uses: case-insensitive literals (`re.IGNORECASE` on
    a `str` pattern), the classes `\w`, `\d` and `\s`, greedy runs, and
    `re.search`'s leftmost match. */
module Patterns {
  import opened Wrappers
  import opened Text

  /** Does text character `c` match the pattern literal `p` under
      `re.IGNORECASE`? Patterns here are written in lower case. Python's
      Unicode case matching also equates `i` with U+0130 and U+0131, `s`
      with U+017F and `k` with U+212A. */
  predicate CharMatches(c: char, p: char) {
    c == p
    || ('a' <= p <= 'z' && c as int == p as int - 32)
    || (p == 'i' && (c == '\U{0130}' || c == '\U{0131}'))
    || (p == 's' && c == '\U{017F}')
    || (p == 'k' && c == '\U{212A}')
  }

  /** The literal `lit` matches `s` case-insensitively starting at `i`. */
  predicate AtCI(s: string, i: nat, lit: string) {
    i + |lit| <= |s| && forall k :: 0 <= k < |lit| ==> CharMatches(s[i + k], lit[k])
  }

  /** `lit` occurs case-insensitively somewhere in `s`. */
  predicate ContainsCI(s: string, lit: string) {
    exists i | 0 <= i <= |s| :: AtCI(s, i, lit)
  }

  /** Python's `\w` on ASCII text: letters, digits and underscore. */
  predicate IsWordChar(c: char) {
    ('a' <= c <= 'z') || ('A' <= c <= 'Z') || ('0' <= c <= '9') || c == '_'
  }

  /** The class `[\w\s]`. */
  predicate IsWordOrSpace(c: char) {
    IsWordChar(c) || IsPySpace(c)
  }

  /** Length of the longest run of `p` characters in `s` starting at `i`: what
      a greedy `+` or `*` loop over a character class consumes. */
  function RunFrom(s: string, i: nat, p: char -> bool): (k: nat)
    ensures i + k <= |s| || k == 0
    ensures forall j :: i <= j < i + k ==> p(s[j])
    ensures i + k < |s| ==> !p(s[i + k])
    decreases |s| - i
  {
    if i >= |s| || !p(s[i]) then 0 else 1 + RunFrom(s, i + 1, p)
  }

  /** The least position in `[from, n)` where `at` holds, as `re.search`
      reports the leftmost start at which the pattern matches. */
  function FirstFrom(from: nat, n: nat, at: nat -> bool): (r: Option<nat>)
    ensures r.Some? ==> from <= r.value < n && at(r.value)
                        && forall j :: from <= j < r.value ==> !at(j)
    ensures r.None? ==> forall j :: from <= j < n ==> !at(j)
    decreases n - from
  {
    if from >= n then None
    else if at(from) then Some(from)
    else FirstFrom(from + 1, n, at)
  }
}

=== FILE: sequences.dfy ===
/** Order-preserving selection from sequences, as JavaScript's
    `Array.prototype.filter` and Python's filtering comprehensions do it. */
module Seqs {

  /** `a` is `b` with some elements left out and the rest in their order. */
  ghost predicate IsSubsequence<T>(a: seq<T>, b: seq<T>)
    decreases |b|
  {
    a == [] || (|b| > 0 && ((a[0] == b[0] && IsSubsequence(a[1..], b[1..])) || IsSubsequence(a, b[1..])))
  }

  /** The elements of `xs` for which `keep` holds, in their order. */
  function Filter<T(!new)>(xs: seq<T>, keep: T -> bool): (r: seq<T>)
    ensures |r| <= |xs|
    ensures IsSubsequence(r, xs)
    ensures forall x :: multiset(r)[x] == if keep(x) then multiset(xs)[x] else 0
    ensures forall x :: x in r <==> x in xs && keep(x)
  {
    if |xs| == 0 then []
    else
      var rest := Filter(xs[1..], keep);
      assert xs == [xs[0]] + xs[1..];
      if keep(xs[0]) then
        var r := [xs[0]] + rest;
        assert r[1..] == rest;
        r
      else
        assert rest == [] || IsSubsequence(rest, xs[1..]);
        rest
  }

  /** Filtering with a predicate that holds everywhere keeps everything. */
  lemma {:induction false} FilterAll<T(!new)>(xs: seq<T>, keep: T -> bool)
    requires forall i :: 0 <= i < |xs| ==> keep(xs[i])
    ensures Filter(xs, keep) == xs
  {
    if |xs| > 0 {
      FilterAll(xs[1..], keep);
      assert xs == [xs[0]] + xs[1..];
    }
  }

  /** Filtering keeps nothing exactly when `keep` holds nowhere. */
  lemma {:induction false} FilterEmpty<T(!new)>(xs: seq<T>, keep: T -> bool)
    ensures Filter(xs, keep) == [] <==> forall i :: 0 <= i < |xs| ==> !keep(xs[i])
  {
    if |xs| > 0 {
      FilterEmpty(xs[1..], keep);
      assert forall i :: 1 <= i < |xs| ==> xs[i] == xs[1..][i - 1];
    }
  }

  /** Concatenation is associative. */
  lemma ConcatAssoc<T>(a: seq<T>, b: seq<T>, c: seq<T>)
    ensures a + (b + c) == (a + b) + c
  {
  }
}

=== FILE: text.dfy ===
/** String helpers shared by the front end (JavaScript) and the back end
    (Python): the two languages' whitespace sets, trimming, splitting on a
    separator, and decimal formatting of naturals. */
module Text {

  /** JavaScript's WhiteSpace and LineTerminator code points: the set that
      `String.prototype.trim` removes. */
  predicate IsJsSpace(c: char) {
    var n := c as int;
    (0x09 <= n <= 0x0D) || n == 0x20 || n == 0xA0 || n == 0x1680
    || (0x2000 <= n <= 0x200A) || n == 0x2028 || n == 0x2029
    || n == 0x202F || n == 0x205F || n == 0x3000 || n == 0xFEFF
  }

  /** The code points for which Python's `str.isspace()` holds; `str.strip()`
      and the regular-expression class `\s` both use this set. */
  predicate IsPySpace(c: char) {
    var n := c as int;
    (0x09 <= n <= 0x0D) || (0x1C <= n <= 0x20) || n == 0x85 || n == 0xA0
    || n == 0x1680 || (0x2000 <= n <= 0x200A) || n == 0x2028 || n == 0x2029
    || n == 0x202F || n == 0x205F || n == 0x3000
  }

  /** Every character of `s` satisfies `p`. */
  predicate AllIn(s: string, p: char -> bool) {
    forall i :: 0 <= i < |s| ==> p(s[i])
  }

  /** Length of the run of `ws` characters at the start of `s`. */
  function LeadingCount(s: string, ws: char -> bool): (k: nat)
    ensures k <= |s|
    ensures forall i :: 0 <= i < k ==> ws(s[i])
    ensures k < |s| ==> !ws(s[k])
  {
    if |s| == 0 || !ws(s[0]) then 0 else 1 + LeadingCount(s[1..], ws)
  }

  /** Length of the run of `ws` characters at the end of `s`. */
  function TrailingCount(s: string, ws: char -> bool): (k: nat)
    ensures k <= |s|
    ensures forall i :: |s| - k <= i < |s| ==> ws(s[i])
    ensures k < |s| ==> !ws(s[|s| - 1 - k])
  {
    if |s| == 0 || !ws(s[|s| - 1]) then 0 else 1 + TrailingCount(s[..|s| - 1], ws)
  }

  /** `s` with leading and trailing `ws` characters removed. */
  function TrimBy(s: string, ws: char -> bool): (r: string)
    ensures r != [] ==> !ws(r[0]) && !ws(r[|r| - 1])
    ensures r == [] <==> AllIn(s, ws)
    ensures forall c :: c in r ==> c in s
  {
    var a := LeadingCount(s, ws);
    if a == |s| then []
    else
      var b := TrailingCount(s, ws);
      assert !AllIn(s, ws) by { assert !ws(s[a]); }
      s[a..|s| - b]
  }

  /** What trimming removes is whitespace: the result is a slice of `s`
      with only `ws` characters before and after it. */
  lemma TrimByIsSlice(s: string, ws: char -> bool)
    ensures var r := TrimBy(s, ws);
            exists i :: 0 <= i <= |s| - |r| && r == s[i..i + |r|]
                        && AllIn(s[..i], ws) && AllIn(s[i + |r|..], ws)
  {
    var r := TrimBy(s, ws);
    var a := LeadingCount(s, ws);
    if a == |s| {
      assert AllIn(s[..0], ws) && AllIn(s[0..], ws);
    } else {
      var b := TrailingCount(s, ws);
      assert r == s[a..a + |r|];
      assert AllIn(s[..a], ws);
      var tail := s[a + |r|..];
      assert AllIn(tail, ws) by {
        forall i | 0 <= i < |tail| ensures ws(tail[i]) {
          assert tail[i] == s[|s| - b + i];
        }
      }
    }
  }

  /** JavaScript `s.trim()`. */
  function JsTrim(s: string): string {
    TrimBy(s, IsJsSpace)
  }

  /** Python `s.strip()`. */
  function PyStrip(s: string): string {
    TrimBy(s, IsPySpace)
  }

  /** Trimming twice is the same as trimming once. */
  lemma TrimByIdempotent(s: string, ws: char -> bool)
    ensures TrimBy(TrimBy(s, ws), ws) == TrimBy(s, ws)
  {
    var r := TrimBy(s, ws);
    if r != [] {
      assert LeadingCount(r, ws) == 0;
      assert TrailingCount(r, ws) == 0;
      assert r[0..|r|] == r;
    }
  }

  /** Number of occurrences of `c` in `s`. */
  function Count(s: string, c: char): nat {
    if |s| == 0 then 0 else (if s[0] == c then 1 else 0) + Count(s[1..], c)
  }

  /** Python `s.split(sep)` for a one-character separator: the pieces between
      consecutive separators, always at least one (`"".split("\n") == [""]`). */
  function Split(s: string, sep: char): (parts: seq<string>)
    ensures |parts| == Count(s, sep) + 1
    ensures forall i :: 0 <= i < |parts| ==> sep !in parts[i]
  {
    if |s| == 0 then [""]
    else
      var rest := Split(s[1..], sep);
      if s[0] == sep then [""] + rest
      else [[s[0]] + rest[0]] + rest[1..]
  }

  /** Python `sep.join(parts)` for a non-empty list of parts. */
  function Join(parts: seq<string>, sep: string): string
    requires |parts| >= 1
  {
    if |parts| == 1 then parts[0] else parts[0] + sep + Join(parts[1..], sep)
  }

  /** The joined text begins with the first part. */
  lemma JoinStartsWithHead(parts: seq<string>, sep: string)
    requires |parts| >= 1
    ensures parts[0] <= Join(parts, sep)
  {
  }

  /** The joined text ends with the last part. */
  lemma {:induction false} JoinEndsWithLast(parts: seq<string>, sep: string)
    requires |parts| >= 1
    ensures var j, last := Join(parts, sep), parts[|parts| - 1];
            |last| <= |j| && j[|j| - |last|..] == last
  {
    if |parts| > 1 {
      var rest := parts[1..];
      JoinEndsWithLast(rest, sep);
      var head, t, last := parts[0] + sep, Join(rest, sep), parts[|parts| - 1];
      assert rest[|rest| - 1] == last;
      assert Join(parts, sep) == head + t;
      assert (head + t)[|head + t| - |last|..] == t[|t| - |last|..];
    }
  }

  /** `Join` undoes `Split`: the pieces and the separators make up the text. */
  lemma {:induction false} JoinSplit(s: string, sep: char)
    ensures Join(Split(s, sep), [sep]) == s
  {
    if |s| > 0 {
      var rest := Split(s[1..], sep);
      JoinSplit(s[1..], sep);
      if s[0] == sep {
        assert Split(s, sep) == [""] + rest;
        JoinEmptyHead(rest, [sep]);
      } else {
        assert Split(s, sep) == [[s[0]] + rest[0]] + rest[1..];
        JoinExtendHead(s[0], rest, [sep]);
      }
      assert s == [s[0]] + s[1..];
    }
  }

  /** An empty first piece contributes only its separator. */
  lemma JoinEmptyHead(rest: seq<string>, sep: string)
    requires |rest| >= 1
    ensures Join([""] + rest, sep) == sep + Join(rest, sep)
  {
    assert ([""] + rest)[1..] == rest;
  }

  /** A character put in front of the first piece comes first in the join. */
  lemma JoinExtendHead(c: char, rest: seq<string>, sep: string)
    requires |rest| >= 1
    ensures Join([[c] + rest[0]] + rest[1..], sep) == [c] + Join(rest, sep)
  {
    var parts := [[c] + rest[0]] + rest[1..];
    if |rest| > 1 {
      assert parts[1..] == rest[1..];
      assert Join(parts, sep) == ([c] + rest[0]) + sep + Join(rest[1..], sep);
      assert Join(rest, sep) == rest[0] + sep + Join(rest[1..], sep);
    }
  }

  /** Every piece of `parts` is all `ws`. */
  predicate EveryPiece(parts: seq<string>, ws: char -> bool) {
    forall i :: 0 <= i < |parts| ==> AllIn(parts[i], ws)
  }

  lemma AllInCons(c: char, t: string, ws: char -> bool)
    ensures AllIn([c] + t, ws) <==> ws(c) && AllIn(t, ws)
  {
    var s := [c] + t;
    if ws(c) && AllIn(t, ws) {
      forall i | 0 <= i < |s| ensures ws(s[i]) {
        if i > 0 { assert s[i] == t[i - 1]; }
      }
    }
    if AllIn(s, ws) {
      assert ws(s[0]);
      forall i | 0 <= i < |t| ensures ws(t[i]) {
        assert t[i] == s[i + 1];
      }
    }
  }

  lemma EveryPieceCons(p: string, rest: seq<string>, ws: char -> bool)
    ensures EveryPiece([p] + rest, ws) <==> AllIn(p, ws) && EveryPiece(rest, ws)
  {
    var parts := [p] + rest;
    if EveryPiece(parts, ws) {
      assert AllIn(parts[0], ws);
      forall i | 0 <= i < |rest| ensures AllIn(rest[i], ws) {
        assert rest[i] == parts[i + 1];
      }
    }
    if AllIn(p, ws) && EveryPiece(rest, ws) {
      forall i | 0 <= i < |parts| ensures AllIn(parts[i], ws) {
        if i > 0 { assert parts[i] == rest[i - 1]; }
      }
    }
  }

  /** The text is all `ws` exactly when every piece of its split is, provided
      the separator itself is a `ws` character (as `'\n'` is for Python). */
  lemma {:induction false} SplitAllIn(s: string, sep: char, ws: char -> bool)
    requires ws(sep)
    ensures AllIn(s, ws) <==> EveryPiece(Split(s, sep), ws)
  {
    if |s| > 0 {
      var rest := Split(s[1..], sep);
      SplitAllIn(s[1..], sep, ws);
      assert s == [s[0]] + s[1..];
      AllInCons(s[0], s[1..], ws);
      if s[0] == sep {
        assert Split(s, sep) == [""] + rest;
        EveryPieceCons("", rest, ws);
      } else {
        assert Split(s, sep) == [[s[0]] + rest[0]] + rest[1..];
        assert rest == [rest[0]] + rest[1..];
        EveryPieceCons([s[0]] + rest[0], rest[1..], ws);
        EveryPieceCons(rest[0], rest[1..], ws);
        AllInCons(s[0], rest[0], ws);
      }
    }
  }

  /** The decimal digit character for `d`. */
  function DigitChar(d: nat): (c: char)
    requires d < 10
    ensures '0' <= c <= '9' && c as int - '0' as int == d
  {
    (d + '0' as int) as char
  }

  /** The value of a decimal digit character. */
  function DigitValue(c: char): nat
    requires '0' <= c <= '9'
  {
    c as int - '0' as int
  }

  predicate IsAsciiDigit(c: char) {
    '0' <= c <= '9'
  }

  /** Decimal rendering of a natural, as JavaScript's template strings and
      Python's f-strings print an integer. */
  function NatToString(n: nat): (r: string)
    ensures |r| >= 1 && AllIn(r, IsAsciiDigit)
    ensures |r| == 1 <==> n < 10
    ensures |r| > 1 ==> r[0] != '0'
  {
    if n < 10 then [DigitChar(n)]
    else
      var r := NatToString(n / 10) + [DigitChar(n % 10)];
      assert r[0] == NatToString(n / 10)[0];
      r
  }

  /** The value of a string of decimal digits, as Python's `int` reads it
      (leading zeros allowed; the empty string reads as 0 here). */
  function DigitsValue(s: string): nat
    requires AllIn(s, IsAsciiDigit)
  {
    if |s| == 0 then 0
    else DigitsValue(s[..|s| - 1]) * 10 + DigitValue(s[|s| - 1])
  }

  function Pow10(k: nat): nat {
    if k == 0 then 1 else 10 * Pow10(k - 1)
  }

  /** A string of `k` digits denotes a value below 10^k. */
  lemma {:induction false} DigitsValueBound(s: string)
    requires AllIn(s, IsAsciiDigit)
    ensures DigitsValue(s) < Pow10(|s|)
  {
    if |s| > 0 {
      DigitsValueBound(s[..|s| - 1]);
    }
  }

  /** Reading back the decimal rendering yields the number. */
  lemma {:induction false} DigitsRoundTrip(n: nat)
    ensures DigitsValue(NatToString(n)) == n
  {
    var r := NatToString(n);
    if n >= 10 {
      DigitsRoundTrip(n / 10);
      assert r[..|r| - 1] == NatToString(n / 10);
    }
  }

  /** Distinct naturals print differently. */
  lemma NatToStringInjective(a: nat, b: nat)
    requires a != b
    ensures NatToString(a) != NatToString(b)
  {
    DigitsRoundTrip(a);
    DigitsRoundTrip(b);
  }

  /** Appending distinct decimal numbers to one prefix gives distinct strings. */
  lemma PrefixedNumbersDistinct(prefix: string, a: nat, b: nat)
    requires a != b
    ensures prefix + NatToString(a) != prefix + NatToString(b)
  {
    NatToStringInjective(a, b);
    assert (prefix + NatToString(a))[|prefix|..] == NatToString(a);
    assert (prefix + NatToString(b))[|prefix|..] == NatToString(b);
  }
}

=== FILE: user_memory.dfy ===
/** The back end's in-memory user profile (backend/app/main.py): what
    `extract_user_info` learns from a message, when a query counts as a
    personal-information question, and the reply composed from the profile. */
module UserMemory {
  import opened Wrappers
  import opened Text
  import opened Patterns

  /** `user_memory`: each field is `None` until a message states it. */
  datatype Memory = Memory(name: Option<string>, age: Option<nat>, birthplace: Option<string>)

  const Unknown: Memory := Memory(None, None, None)

  // ---- `i am (\w+)` ----

  /** The pattern `i am (\w+)` matches at `p`. */
  predicate NameAt(s: string, p: nat) {
    AtCI(s, p, "i am ") && p + 5 < |s| && IsWordChar(s[p + 5])
  }

  /** Where `re.search` finds `i am (\w+)`: the leftmost match. */
  function NameStart(s: string): (r: Option<nat>)
    ensures r.Some? ==> r.value < |s| && NameAt(s, r.value)
                        && forall q :: 0 <= q < r.value ==> !NameAt(s, q)
    ensures r.None? ==> forall q :: 0 <= q < |s| ==> !NameAt(s, q)
  {
    var at := (p: nat) => NameAt(s, p);
    assert forall q: nat :: at(q) == NameAt(s, q);
    FirstFrom(0, |s|, at)
  }

  /** `group(1)` of the name match: the whole run of word characters after
      "i am ". */
  function NameCapture(s: string): (r: Option<string>)
    ensures r.Some? <==> NameStart(s).Some?
    ensures r.Some? ==>
              var g := NameStart(s).value + 5;
              && |r.value| >= 1 && AllIn(r.value, IsWordChar)
              && g + |r.value| <= |s| && r.value == s[g..g + |r.value|]
              && (g + |r.value| == |s| || !IsWordChar(s[g + |r.value|]))
  {
    match NameStart(s)
    case None => None
    case Some(p) =>
      var k := RunFrom(s, p + 5, IsWordChar);
      var v := s[p + 5..p + 5 + k];
      assert forall i :: 0 <= i < |v| ==> v[i] == s[p + 5 + i];
      Some(v)
  }

  // ---- `(\d{1,3}) ?years? old` ----

  /** `years? old` at `q`. */
  predicate YearsOldAt(s: string, q: nat) {
    AtCI(s, q, "years old") || AtCI(s, q, "year old")
  }

  /** What must follow the digits: ` ?years? old`. */
  predicate AgeTailAt(s: string, q: nat) {
    (AtCI(s, q, " ") && YearsOldAt(s, q + 1)) || YearsOldAt(s, q)
  }

  /** The pattern matches at `p`. `\d{1,3}` is greedy, and a shorter run of
      digits is always followed by another digit, so the match needs the
      whole run of digits at `p` to be at most three long. */
  predicate AgeAt(s: string, p: nat) {
    var k := RunFrom(s, p, IsAsciiDigit);
    1 <= k <= 3 && AgeTailAt(s, p + k)
  }

  function AgeStart(s: string): (r: Option<nat>)
    ensures r.Some? ==> r.value < |s| && AgeAt(s, r.value)
                        && forall q :: 0 <= q < r.value ==> !AgeAt(s, q)
    ensures r.None? ==> forall q :: 0 <= q < |s| ==> !AgeAt(s, q)
  {
    var at := (p: nat) => AgeAt(s, p);
    assert forall q: nat :: at(q) == AgeAt(s, q);
    FirstFrom(0, |s|, at)
  }

  /** `int(age_match.group(1))`: the value of the one to three digits. */
  function AgeCapture(s: string): (r: Option<nat>)
    ensures r.Some? <==> AgeStart(s).Some?
    ensures r.Some? ==>
              var p := AgeStart(s).value;
              var k := RunFrom(s, p, IsAsciiDigit);
              && 1 <= k <= 3 && p + k <= |s|
              && AllIn(s[p..p + k], IsAsciiDigit)
              && r.value == DigitsValue(s[p..p + k])
    ensures r.Some? ==> r.value < 1000
  {
    match AgeStart(s)
    case None => None
    case Some(p) =>
      var k := RunFrom(s, p, IsAsciiDigit);
      assert AgeAt(s, p);
      var digits := s[p..p + k];
      DigitRun(s, p, k);
      ThreeDigitsBound(digits);
      Some(DigitsValue(digits))
  }

  /** The characters of a run of digits, taken as a slice, are all digits. */
  lemma DigitRun(s: string, p: nat, k: nat)
    requires p + k <= |s| && forall j :: p <= j < p + k ==> IsAsciiDigit(s[j])
    ensures AllIn(s[p..p + k], IsAsciiDigit)
  {
    var digits := s[p..p + k];
    forall i | 0 <= i < k ensures IsAsciiDigit(digits[i]) {
      assert digits[i] == s[p + i];
    }
  }

  /** One to three digits denote a number below 1000. */
  lemma ThreeDigitsBound(digits: string)
    requires 1 <= |digits| <= 3 && AllIn(digits, IsAsciiDigit)
    ensures DigitsValue(digits) < 1000
  {
    DigitsValueBound(digits);
    assert Pow10(|digits|) <= 1000 by {
      assert Pow10(1) == 10 && Pow10(2) == 100 && Pow10(3) == 1000;
    }
  }

  // ---- `(?:born in|from)\s+([\w\s]+)` ----

  /** Where the keyword `born in` or `from` ends, if one starts at `p`. */
  function KeywordEnd(s: string, p: nat): Option<nat> {
    if AtCI(s, p, "born in") then Some(p + 7)
    else if AtCI(s, p, "from") then Some(p + 4)
    else None
  }

  /** The span of `group(1)` when the pattern matches at `p`. `\s+` first takes
      the whole whitespace run; if a word character follows, the group is the
      run of `[\w\s]` from there; otherwise `\s+` gives back its last
      whitespace character, which becomes the whole group (a run of one). */
  function BirthGroupAt(s: string, p: nat): (r: Option<(nat, nat)>)
    ensures r.Some? ==> r.value.0 < r.value.1 <= |s|
                        && forall i :: r.value.0 <= i < r.value.1 ==> IsWordOrSpace(s[i])
  {
    match KeywordEnd(s, p)
    case None => None
    case Some(q) =>
      var w := RunFrom(s, q, IsPySpace);
      if w == 0 then None
      else if q + w < |s| && IsWordChar(s[q + w]) then
        Some((q + w, q + w + RunFrom(s, q + w, IsWordOrSpace)))
      else if w >= 2 then Some((q + w - 1, q + w))
      else None
  }

  function BirthStart(s: string): (r: Option<nat>)
    ensures r.Some? ==> r.value < |s| && BirthGroupAt(s, r.value).Some?
                        && forall q :: 0 <= q < r.value ==> BirthGroupAt(s, q).None?
    ensures r.None? ==> forall q :: 0 <= q < |s| ==> BirthGroupAt(s, q).None?
  {
    var at := (p: nat) => BirthGroupAt(s, p).Some?;
    assert forall q: nat :: at(q) == BirthGroupAt(s, q).Some?;
    FirstFrom(0, |s|, at)
  }

  /** `birth_match.group(1).strip()`: word characters and inner whitespace
      only, never starting or ending with whitespace (possibly empty). */
  function BirthCapture(s: string): (r: Option<string>)
    ensures r.Some? <==> BirthStart(s).Some?
    ensures r.Some? ==> AllIn(r.value, IsWordOrSpace) && PyStrip(r.value) == r.value
    ensures r.Some? && r.value != [] ==> IsWordChar(r.value[0]) && IsWordChar(r.value[|r.value| - 1])
    ensures r.Some? ==> var span := BirthGroupAt(s, BirthStart(s).value).value;
                        r.value == PyStrip(s[span.0..span.1])
  {
    match BirthStart(s)
    case None => None
    case Some(p) =>
      var span := BirthGroupAt(s, p).value;
      var group := s[span.0..span.1];
      assert AllIn(group, IsWordOrSpace) by {
        forall i | 0 <= i < |group| ensures IsWordOrSpace(group[i]) {
          assert group[i] == s[span.0 + i];
        }
      }
      StripWordsAndSpaces(group);
      Some(PyStrip(group))
  }

  /** Stripping a run of `[\w\s]` leaves word characters at both ends. */
  lemma StripWordsAndSpaces(group: string)
    requires AllIn(group, IsWordOrSpace)
    ensures var v := PyStrip(group);
            && AllIn(v, IsWordOrSpace) && PyStrip(v) == v
            && (v != [] ==> IsWordChar(v[0]) && IsWordChar(v[|v| - 1]))
  {
    var v := PyStrip(group);
    TrimByIdempotent(group, IsPySpace);
    forall i | 0 <= i < |v| ensures IsWordOrSpace(v[i]) {
      assert v[i] in group;
    }
  }

  /** `extract_user_info`: each field is overwritten exactly when its own
      pattern matches the message; a field whose pattern does not match keeps
      its value, so a field once set is never reset to `None`. It can still
      be overwritten with a value the reply treats as unknown (an age of 0, an
      empty birthplace). */
  function ExtractUserInfo(message: string, m: Memory): (r: Memory)
    ensures NameCapture(message).None? ==> r.name == m.name
    ensures NameCapture(message).Some? ==> r.name == NameCapture(message)
    ensures AgeCapture(message).None? ==> r.age == m.age
    ensures AgeCapture(message).Some? ==> r.age == AgeCapture(message)
    ensures BirthCapture(message).None? ==> r.birthplace == m.birthplace
    ensures BirthCapture(message).Some? ==> r.birthplace == BirthCapture(message)
    ensures m.name.Some? ==> r.name.Some?
    ensures m.age.Some? ==> r.age.Some?
    ensures m.birthplace.Some? ==> r.birthplace.Some?
    ensures r.age.Some? && r.age != m.age ==> r.age.value < 1000
  {
    var name := match NameCapture(message) case Some(v) => Some(v) case None => m.name;
    var age := match AgeCapture(message) case Some(v) => Some(v) case None => m.age;
    var birthplace := match BirthCapture(message) case Some(v) => Some(v) case None => m.birthplace;
    Memory(name, age, birthplace)
  }

  /** Reading the same message twice learns nothing more. */
  lemma ExtractIdempotent(message: string, m: Memory)
    ensures ExtractUserInfo(message, ExtractUserInfo(message, m)) == ExtractUserInfo(message, m)
  {
  }

  /** "I am Bob" sets the name to "Bob". */
  lemma NameExample(m: Memory)
    ensures ExtractUserInfo("I am Bob", m).name == Some("Bob")
  {
    var s := "I am Bob";
    assert s[0] == 'I' && s[1] == ' ' && s[2] == 'a' && s[3] == 'm' && s[4] == ' ';
    assert s[5] == 'B' && s[6] == 'o' && s[7] == 'b';
    assert AtCI(s, 0, "i am ") by {
      assert CharMatches(s[0], "i am "[0]);
    }
    assert NameAt(s, 0);
    assert NameStart(s) == Some(0);
    assert RunFrom(s, 8, IsWordChar) == 0;
    assert RunFrom(s, 5, IsWordChar) == 3;
    assert s[5..8] == "Bob";
  }

  /** A four-digit number is never an age: in "1234 years old" the match
      starts at the second digit. */
  lemma AgeExample(m: Memory)
    ensures ExtractUserInfo("1234 years old", m).age == Some(234)
  {
    var s := "1234 years old";
    assert s[0] == '1' && s[1] == '2' && s[2] == '3' && s[3] == '4' && s[4] == ' ';
    assert RunFrom(s, 4, IsAsciiDigit) == 0;
    assert RunFrom(s, 3, IsAsciiDigit) == 1;
    assert RunFrom(s, 2, IsAsciiDigit) == 2;
    assert RunFrom(s, 1, IsAsciiDigit) == 3;
    assert RunFrom(s, 0, IsAsciiDigit) == 4;
    assert !AgeAt(s, 0);
    assert AtCI(s, 5, "years old") by {
      assert s[5..14] == "years old";
      forall k | 0 <= k < 9 ensures CharMatches(s[5 + k], "years old"[k]) {
        assert s[5 + k] == s[5..14][k];
      }
    }
    assert AtCI(s, 4, " ");
    assert AgeAt(s, 1);
    assert AgeStart(s) == Some(1);
    assert s[1..4] == "234";
    assert DigitsValue("234") == 234 by {
      assert "234"[..2] == "23" && "23"[..1] == "2" && "2"[..0] == "";
    }
  }

  const ZeroYearsOld: string := "0 years old"

  /** A stated age of 0 overwrites a known age with one the reply treats as
      unknown: a field can go from truthy to falsy. */
  lemma ZeroAgeOverwrites(m: Memory)
    ensures var r := ExtractUserInfo(ZeroYearsOld, m);
            r.age == Some(0) && !KnownAge(r.age)
  {
    ZeroYearsCapture(ZeroYearsOld);
  }

  lemma ZeroYearsCapture(s: string)
    requires s == ZeroYearsOld
    ensures AgeCapture(s) == Some(0)
  {
    ZeroYearsStart(s);
    AgeIs(s, 0);
    assert s[0..1] == "0";
  }

  lemma ZeroYearsStart(s: string)
    requires s == ZeroYearsOld
    ensures AgeStart(s) == Some(0) && RunFrom(s, 0, IsAsciiDigit) == 1
  {
    assert s[0] == '0' && s[1] == ' ';
    assert RunFrom(s, 1, IsAsciiDigit) == 0;
    assert s[2..11] == "years old";
    AtCIOfSlice(s, 2, "years old");
    assert AtCI(s, 1, " ");
    assert AgeAt(s, 0);
  }

  /** The age is the value of the digit run at the leftmost match. */
  lemma AgeIs(s: string, p: nat)
    requires AgeStart(s) == Some(p)
    ensures var k := RunFrom(s, p, IsAsciiDigit);
            p + k <= |s| && AgeCapture(s) == Some(DigitsValue(s[p..p + k]))
  {
  }

  const FromBlank: string := "from  ."

  /** "from", two spaces and no word: `\s+` gives back one space, the group is
      that space, and its strip is empty, so a known birthplace is overwritten
      with the empty text, which the reply treats as unknown. */
  lemma BlankBirthplaceOverwrites(m: Memory)
    ensures var r := ExtractUserInfo(FromBlank, m);
            r.birthplace == Some("") && !KnownText(r.birthplace)
  {
    FromBlankCapture(FromBlank);
  }

  lemma FromBlankCapture(s: string)
    requires s == FromBlank
    ensures BirthCapture(s) == Some("")
  {
    FromBlankStart(s);
    FromBlankStrip(s);
    CaptureIs(s, 0, 5, 6, "");
  }

  lemma FromBlankStart(s: string)
    requires s == FromBlank
    ensures BirthStart(s) == Some(0) && BirthGroupAt(s, 0) == Some((5, 6))
  {
    FromBlankGroup(s);
    LeftmostBirth(s, 0);
  }

  lemma FromBlankStrip(s: string)
    requires s == FromBlank
    ensures PyStrip(s[5..6]) == ""
  {
    assert AllIn(s[5..6], IsPySpace) by {
      assert s[5..6][0] == ' ';
    }
  }

  lemma FromBlankGroup(s: string)
    requires s == FromBlank
    ensures BirthGroupAt(s, 0) == Some((5, 6))
  {
    assert s[0..4] == "from";
    AtCIOfSlice(s, 0, "from");
    assert !AtCI(s, 0, "born in") by {
      assert "born in"[0] == 'b';
    }
    assert s[4] == ' ' && s[5] == ' ' && s[6] == '.';
    assert RunFrom(s, 6, IsPySpace) == 0;
    assert RunFrom(s, 5, IsPySpace) == 1;
    assert RunFrom(s, 4, IsPySpace) == 2;
  }

  const BornInPrefix: string := "I was born in "

  /** A place name the birthplace group takes whole: word characters and
      inner whitespace, a word character at each end. */
  predicate PlainPlace(place: string) {
    place != [] && AllIn(place, IsWordOrSpace)
    && IsWordChar(place[0]) && IsWordChar(place[|place| - 1])
  }

  /** "I was born in New York" sets the birthplace to "New York", whatever
      was remembered before: the group runs over inner spaces to the end of
      the message. */
  lemma BirthExample(m: Memory, place: string)
    requires PlainPlace(place)
    ensures ExtractUserInfo(BornInPrefix + place, m).birthplace == Some(place)
  {
    BornInCapture(BornInPrefix + place, place);
  }

  /** "New York" is such a place. */
  lemma NewYorkIsPlain()
    ensures PlainPlace("New York")
  {
  }

  lemma BornInCapture(s: string, place: string)
    requires PlainPlace(place) && s == BornInPrefix + place
    ensures BirthCapture(s) == Some(place)
  {
    BornInStart(s, place);
    BornInTail(s, place);
    CaptureIs(s, 6, 14, |s|, place);
  }

  lemma BornInTail(s: string, place: string)
    requires PlainPlace(place) && s == BornInPrefix + place
    ensures PyStrip(s[14..|s|]) == place
  {
    assert s[14..|s|] == place;
    StripPlain(place);
  }

  lemma BornInStart(s: string, place: string)
    requires PlainPlace(place) && s == BornInPrefix + place
    ensures BirthStart(s) == Some(6)
    ensures BirthGroupAt(s, 6) == Some((14, |s|))
  {
    assert s[0] == 'I' && s[1] == ' ' && s[2] == 'w' && s[3] == 'a' && s[4] == 's' && s[5] == ' ';
    forall q | 0 <= q < 6 ensures BirthGroupAt(s, q).None? {
      NoKeywordAt(s, q);
    }
    BornInGroup(s, place);
    LeftmostBirth(s, 6);
  }

  lemma BornInGroup(s: string, place: string)
    requires PlainPlace(place) && s == BornInPrefix + place
    ensures BirthGroupAt(s, 6) == Some((14, |s|))
  {
    assert s[6..13] == "born in";
    AtCIOfSlice(s, 6, "born in");
    assert s[13] == ' ' && s[14] == place[0];
    forall j | 14 <= j < |s| ensures IsWordOrSpace(s[j]) {
      assert s[j] == place[j - 14];
    }
    GroupAfterKeyword(s, 6, 13);
  }

  /** The capture is the strip of the group's span at the leftmost match. */
  lemma CaptureIs(s: string, p: nat, a: nat, b: nat, v: string)
    requires BirthStart(s) == Some(p) && BirthGroupAt(s, p) == Some((a, b))
    requires a <= b <= |s| && PyStrip(s[a..b]) == v
    ensures BirthCapture(s) == Some(v)
  {
  }

  /** A literal occurs where the text spells it exactly. */
  lemma AtCIOfSlice(s: string, i: nat, lit: string)
    requires i + |lit| <= |s| && s[i..i + |lit|] == lit
    ensures AtCI(s, i, lit)
  {
    forall k | 0 <= k < |lit| ensures CharMatches(s[i + k], lit[k]) {
      assert s[i + k] == s[i..i + |lit|][k];
    }
  }

  /** No keyword starts at a character that is neither `b` nor `f`. */
  lemma NoKeywordAt(s: string, q: nat)
    requires q < |s| && !CharMatches(s[q], 'b') && !CharMatches(s[q], 'f')
    ensures BirthGroupAt(s, q).None?
  {
    assert !AtCI(s, q, "born in") by { assert "born in"[0] == 'b'; }
    assert !AtCI(s, q, "from") by { assert "from"[0] == 'f'; }
  }

  /** One space after the keyword, then a word character, then only word
      characters and spaces to the end: the group is all of that tail. */
  lemma GroupAfterKeyword(s: string, p: nat, q: nat)
    requires KeywordEnd(s, p) == Some(q) && q + 1 < |s|
    requires IsPySpace(s[q]) && IsWordChar(s[q + 1])
    requires forall j :: q + 1 <= j < |s| ==> IsWordOrSpace(s[j])
    ensures BirthGroupAt(s, p) == Some((q + 1, |s|))
  {
    assert !IsPySpace(s[q + 1]);
    assert RunFrom(s, q + 1, IsPySpace) == 0;
    assert RunFrom(s, q, IsPySpace) == 1;
    RunCoversTail(s, q + 1, IsWordOrSpace);
  }

  /** The match starts at the first position where the pattern matches. */
  lemma LeftmostBirth(s: string, p: nat)
    requires p < |s| && BirthGroupAt(s, p).Some?
    requires forall q :: 0 <= q < p ==> BirthGroupAt(s, q).None?
    ensures BirthStart(s) == Some(p)
  {
  }

  /** A run that reaches the end of the text covers the whole tail. */
  lemma {:induction false} RunCoversTail(s: string, i: nat, p: char -> bool)
    requires i <= |s| && forall j :: i <= j < |s| ==> p(s[j])
    ensures RunFrom(s, i, p) == |s| - i
    decreases |s| - i
  {
    if i < |s| {
      RunCoversTail(s, i + 1, p);
    }
  }

  /** A text with no whitespace at either end is its own strip. */
  lemma StripPlain(v: string)
    requires v != [] && !IsPySpace(v[0]) && !IsPySpace(v[|v| - 1])
    ensures PyStrip(v) == v
  {
    assert LeadingCount(v, IsPySpace) == 0;
    assert TrailingCount(v, IsPySpace) == 0;
  }

  // ---- `what.*name|age|birthplace|born` ----

  /** `what.*name`: "what", then later on the same line "name". */
  predicate WhatThenName(q: string) {
    exists i, j | 0 <= i && i + 4 <= j <= |q| :: AtCI(q, i, "what") && AtCI(q, j, "name") && '\n' !in q[i + 4..j]
  }

  /** The personal-information trigger: `re.search(r"what.*name|age|birthplace|born",
      query, re.IGNORECASE)` finds a match. */
  predicate AsksPersonalInfo(q: string) {
    WhatThenName(q) || ContainsCI(q, "age") || ContainsCI(q, "birthplace") || ContainsCI(q, "born")
  }

  /** Substring containment, not word matching, decides: "message" contains
      "age", and "What is my name?" asks for the name. */
  lemma TriggerExamples()
    ensures AsksPersonalInfo("message")
    ensures AsksPersonalInfo("What is my name?")
  {
    assert AtCI("message", 4, "age");
    var q := "What is my name?";
    assert AtCI(q, 0, "what") && AtCI(q, 11, "name") && '\n' !in q[4..11];
  }

  /** `re.search` looks anywhere: text around a query that asks for personal
      information does not stop it asking. */
  lemma AsksWithin(a: string, q: string, b: string)
    requires AsksPersonalInfo(q)
    ensures AsksPersonalInfo(a + q + b)
  {
    var t := a + q + b;
    if WhatThenName(q) {
      var i, j :| 0 <= i && i + 4 <= j <= |q| && AtCI(q, i, "what") && AtCI(q, j, "name") && '\n' !in q[i + 4..j];
      AtCIShift(a, q, b, i, "what");
      AtCIShift(a, q, b, j, "name");
      assert t[|a| + i + 4..|a| + j] == q[i + 4..j];
      assert WhatThenName(t);
    } else {
      var lit := if ContainsCI(q, "age") then "age" else if ContainsCI(q, "birthplace") then "birthplace" else "born";
      var i :| 0 <= i <= |q| && AtCI(q, i, lit);
      AtCIShift(a, q, b, i, lit);
      assert ContainsCI(t, lit);
    }
  }

  /** Every alternative of the trigger needs an 'a' or a 'b' in some case
      ("what", "age", "birthplace", "born"), so a query without either
      letter never asks for personal information. */
  lemma NoAOrBNeverAsks(q: string)
    requires forall i :: 0 <= i < |q| ==> !CharMatches(q[i], 'a') && !CharMatches(q[i], 'b')
    ensures !AsksPersonalInfo(q)
  {
    forall i | 0 <= i <= |q|
      ensures !AtCI(q, i, "what") && !AtCI(q, i, "age") && !AtCI(q, i, "birthplace") && !AtCI(q, i, "born")
    {
      assert "what"[2] == "age"[0] == 'a' && "birthplace"[0] == "born"[0] == 'b';
    }
  }

  /** A literal matched inside `q` is matched at the shifted position of any
      text containing `q`. */
  lemma AtCIShift(a: string, q: string, b: string, i: nat, lit: string)
    requires AtCI(q, i, lit)
    ensures AtCI(a + q + b, |a| + i, lit)
  {
    var t := a + q + b;
    forall k | 0 <= k < |lit| ensures CharMatches(t[|a| + i + k], lit[k]) {
      assert t[|a| + i + k] == q[i + k];
    }
  }

  // ---- the reply ----

  /** Python truthiness of a stored text: present and non-empty. */
  predicate KnownText(v: Option<string>) {
    v.Some? && v.value != []
  }

  /** Python truthiness of a stored age: present and non-zero. */
  predicate KnownAge(v: Option<nat>) {
    v.Some? && v.value != 0
  }

  predicate KnowsSomething(m: Memory) {
    KnownText(m.name) || KnownAge(m.age) || KnownText(m.birthplace)
  }

  const NoInformation: string := "I don't have that information yet."

  /** 1 for a fact that is known, 0 otherwise. */
  function Indicator(b: bool): nat {
    if b then 1 else 0
  }

  /** The sentence fragments for the known facts, in the order name, age,
      birthplace: one fragment per truthy field and nothing else. */
  function ReplyParts(m: Memory): (parts: seq<string>)
    ensures |parts| == Indicator(KnownText(m.name)) + Indicator(KnownAge(m.age)) + Indicator(KnownText(m.birthplace))
    ensures parts == [] <==> !KnowsSomething(m)
    ensures KnownText(m.name) ==> parts[0] == "Your name is " + m.name.value
    ensures KnownAge(m.age) ==> parts[Indicator(KnownText(m.name))] == "your age is " + NatToString(m.age.value)
    ensures KnownText(m.birthplace) ==> parts[|parts| - 1] == "and you were born in " + m.birthplace.value
    ensures forall i :: 0 <= i < |parts| ==> |parts[i]| > 0 && parts[i][0] in {'Y', 'y', 'a'}
    ensures forall i :: 0 <= i < |parts| ==>
              && (parts[i][0] == 'Y' <==> i == 0 && KnownText(m.name))
              && (parts[i][0] == 'y' ==> KnownAge(m.age))
              && (parts[i][0] == 'a' <==> i == |parts| - 1 && KnownText(m.birthplace))
  {
    (if KnownText(m.name) then ["Your name is " + m.name.value] else [])
    + (if KnownAge(m.age) then ["your age is " + NatToString(m.age.value)] else [])
    + (if KnownText(m.birthplace) then ["and you were born in " + m.birthplace.value] else [])
  }

  lemma {:induction false} JoinStartsWithFirst(parts: seq<string>, sep: string)
    requires |parts| >= 1 && |parts[0]| > 0
    ensures |Join(parts, sep)| > 0 && Join(parts, sep)[0] == parts[0][0]
  {
  }

  /** The personal-information reply: the known facts joined with ", " and
      closed with ".", or the fixed no-information sentence. */
  function PersonalReply(m: Memory): (r: string)
    ensures |r| > 0 && r[|r| - 1] == '.'
    ensures r == NoInformation <==> !KnowsSomething(m)
  {
    var parts := ReplyParts(m);
    if parts == [] then NoInformation
    else
      var r := Join(parts, ", ") + ".";
      JoinStartsWithFirst(parts, ", ");
      assert r[0] != NoInformation[0];
      r
  }

  /** With everything known the reply reads name, age, birthplace in that
      order. */
  lemma ReplyWithAllFacts(name: string, age: nat, birthplace: string)
    requires name != [] && age != 0 && birthplace != []
    ensures PersonalReply(Memory(Some(name), Some(age), Some(birthplace)))
            == "Your name is " + name + ", your age is " + NatToString(age)
               + ", and you were born in " + birthplace + "."
  {
    var m := Memory(Some(name), Some(age), Some(birthplace));
    var a, b, c := "Your name is " + name, "your age is " + NatToString(age),
                   "and you were born in " + birthplace;
    AllPartsKnown(name, age, birthplace);
    JoinedReply(m);
    JoinThree(a, b, c, ", ");
    ThreePartSentence(name, NatToString(age), birthplace);
  }

  lemma AllPartsKnown(name: string, age: nat, birthplace: string)
    requires name != [] && age != 0 && birthplace != []
    ensures ReplyParts(Memory(Some(name), Some(age), Some(birthplace)))
            == ["Your name is " + name, "your age is " + NatToString(age), "and you were born in " + birthplace]
  {
    var a, b, c := "Your name is " + name, "your age is " + NatToString(age),
                   "and you were born in " + birthplace;
    assert [a] + [b] + [c] == [a, b, c];
  }

  lemma ThreePartSentence(name: string, age: string, birthplace: string)
    ensures ("Your name is " + name) + ", " + ("your age is " + age) + ", " + ("and you were born in " + birthplace) + "."
            == "Your name is " + name + ", your age is " + age + ", and you were born in " + birthplace + "."
  {
    assert ", " + "your age is " == ", your age is ";
    assert ", " + "and you were born in " == ", and you were born in ";
  }

  /** When something is known the reply is the joined parts and a period. */
  lemma JoinedReply(m: Memory)
    requires KnowsSomething(m)
    ensures PersonalReply(m) == Join(ReplyParts(m), ", ") + "."
  {
  }

  lemma JoinThree(a: string, b: string, c: string, sep: string)
    ensures Join([a, b, c], sep) == a + sep + b + sep + c
  {
    assert [a, b, c][1..] == [b, c] && [b, c][1..] == [c];
    assert Join([c], sep) == c;
    assert Join([b, c], sep) == b + sep + c;
    assert Join([a, b, c], sep) == a + sep + (b + sep + c);
  }

  /** The reply opens with the name exactly when the name is known. */
  lemma ReplyOpensWithName(m: Memory)
    ensures PersonalReply(m)[0] == 'Y' <==> KnownText(m.name)
    ensures KnownText(m.name) ==> "Your name is " + m.name.value <= PersonalReply(m)
  {
    if KnowsSomething(m) {
      var parts := ReplyParts(m);
      JoinStartsWithHead(parts, ", ");
      JoinStartsWithFirst(parts, ", ");
    }
  }

  /** The reply closes with the birthplace exactly when the birthplace is
      known. */
  lemma ReplyClosesWithBirthplace(m: Memory)
    ensures KnownText(m.birthplace) ==>
              var r, tail := PersonalReply(m), "and you were born in " + m.birthplace.value + ".";
              |tail| <= |r| && r[|r| - |tail|..] == tail
  {
    if KnownText(m.birthplace) {
      var parts := ReplyParts(m);
      var j, last := Join(parts, ", "), parts[|parts| - 1];
      JoinEndsWithLast(parts, ", ");
      assert (j + ".")[|j + "."| - |last + "."|..] == j[|j| - |last|..] + ".";
    }
  }

  /** An age of 0 counts as unknown: with only that stored, the reply is the
      no-information sentence. */
  lemma ZeroAgeIsUnknown()
    ensures PersonalReply(Memory(None, Some(0), None)) == NoInformation
  {
  }
}

=== FILE: wrappers.dfy ===
/** Optional values, used wherever the program reads a value that may be
    missing (`null`, `None`, an absent form field). */
module Wrappers {

  datatype Option<+T> = None | Some(value: T)
}
